=== FILE: README.md ===
# MoodMuseumFhe client core, modelled in Dafny

MoodMuseumFhe is an "emotion museum" web client. A user picks a mood. The
client "encrypts" it with a stand-in for homomorphic encryption: the text
`"FHE-"` followed by base64. The client stores the result in a key/value
contract. It then looks up three exhibit recommendations for the mood and
stores each one, again encrypted, as an exhibit record. Every record has an
id, and every collection keeps a JSON index of its ids. The client reloads
the exhibit list newest first and draws a chart of how many exhibits match
each emotion. Revealing an exhibit's data requires the user to sign a
challenge message that describes the session.

The model covers the client logic in `frontend/web/src/App.tsx`:

| Module | Covers |
|---|---|
| `Wrappers` | `Option` and `byte` |
| `Text` | Latin-1, `trim`, Latin-1 `toLowerCase`, lines, decimal numbers |
| `Base64` | `btoa` / `atob` (forgiving base64) |
| `Codec` | `FHEEncryption` / `FHEDecryption` |
| `Records` | The record shapes; UTF-8 and JSON as an abstract `Formats` value with laws |
| `KeyedStore` | The contract's storage as a map from keys to byte strings; the append-with-index protocol |
| `Listing` | `loadExhibits` and `emotionDistribution` |
| `Recommend` | `generateRecommendedExhibits` |
| `Submission` | `submitMood` |
| `Reveal` | `decryptWithSignature` and `handleDecrypt` |
| `Availability` | `checkAvailability` |

The contract's storage is a `map<string, seq<byte>>`, and an absent key reads
as no bytes. A `setData` call is a `Write`, and a run of the workflow is the
list of writes it makes.

Exceptions become explicit values:

- `btoa` or `atob` throwing is `None`;
- `JSON.parse` throwing is `None`;
- a wallet refusing to sign is `Declined`;
- the `setData` that throws is a parameter `failAt`.

`Date.now()` and `Math.random()` results are the fields of a `Draws` value.

`Submission.Submit` takes the result of the table lookup as a parameter, and `Submission.SubmitMood` is `submitMood` itself: it passes the lookup `Recommend.Recommend` gives for the emotion. `Submission.RunPlan` carries out the writes that a submission plans.

## Model

| member | source | states |
|---|---|---|
| `Base64.Btoa` | frontend/web/src/App.tsx:25 | `btoa` succeeds exactly on Latin-1 text, and its output has four characters per started group of three |
| `Base64.Atob` | frontend/web/src/App.tsx:26 | A successful decode is Latin-1 text, one character per decoded byte |
| `Base64.AtobBtoa` | frontend/web/src/App.tsx:25-26 | `atob` gives back every Latin-1 text `btoa` encoded |
| `Codec.Encrypt` | frontend/web/src/App.tsx:25 | Encryption succeeds exactly on Latin-1 text; the ciphertext starts with `FHE-` and has the base64 length |
| `Codec.Decrypt` | frontend/web/src/App.tsx:26 | Text without the `FHE-` tag passes through unchanged; a decoded tagged text is Latin-1 |
| `Codec.DecryptEncrypt` | frontend/web/src/App.tsx:25-26 | Decryption recovers every encrypted plaintext |
| `Text.TrimEmptyIffBlank` | frontend/web/src/App.tsx:91 | `trim()` gives `""` exactly when the text is all white space |
| `KeyedStore.RecordKeyVsIndexKey` | frontend/web/src/App.tsx:146-156 | A record key equals an index key only for the id `"keys"` in the same collection |
| `KeyedStore.RecordKeysInjective` | frontend/web/src/App.tsx:177 | Different (collection, id) pairs have different record keys |
| `KeyedStore.IndexBytesRoundTrip` | frontend/web/src/App.tsx:149-156 | An index written as the JSON of some ids reads back as exactly those ids, both in the listing's read (`ListIds`) and in the append path's read (`ReadIndex`), and its bytes are never empty |
| `KeyedStore.ListIdsCases` | frontend/web/src/App.tsx:86-93 | Listing never fails: it gives the parsed ids when the index is present, decodes, is not blank and parses, and no ids otherwise |
| `KeyedStore.ListingAgreesWithAppendRead` | frontend/web/src/App.tsx:149-154 | The append path's index read (which has no blank check) gives the same ids as the listing's read |
| `KeyedStore.AppendWrites` | frontend/web/src/App.tsx:146-156 | One append is two writes: the record first, then the index re-read after that write with the id pushed |
| `KeyedStore.AppendEffect` | frontend/web/src/App.tsx:177-187 | After one append, the record holds its bytes and the index gains the id at the end; no other key changes |
| `KeyedStore.AppendAll` | frontend/web/src/App.tsx:166-188 | A series of appends writes each record immediately before its collection's index |
| `KeyedStore.AppendAllIndex` | frontend/web/src/App.tsx:166-188 | After a series of appends, each index has that collection's appended ids at its end, in order |
| `KeyedStore.AppendAllFrame` | frontend/web/src/App.tsx:166-188 | Keys the appends do not name keep their bytes |
| `KeyedStore.FirstRecordKept` | frontend/web/src/App.tsx:166-188 | When record keys are distinct, no later append overwrites the first record |
| `KeyedStore.AppendAllRecords` | frontend/web/src/App.tsx:166-188 | When record keys are distinct, every appended record is stored with its own bytes |
| `KeyedStore.RecordWriteKeepsConsistent` | frontend/web/src/App.tsx:146 | Writing a non-empty record cannot leave a listed id without a record |
| `KeyedStore.AppendAllPrefixSplit` | frontend/web/src/App.tsx:146-187 | The writes made before a throw past the first append are that append followed by a prefix of the later appends |
| `KeyedStore.AppendAllKeepsConsistent` | frontend/web/src/App.tsx:146-187 | Every prefix of a series of appends keeps "every listed id has a record" |
| `Listing.ReadRecordWritten` | frontend/web/src/App.tsx:98-113 | A record written as the UTF-8 JSON of a document reads back as that document; an empty record reads as nothing |
| `Listing.ReadRecords` | frontend/web/src/App.tsx:96-115 | Each listed entry is an index id with exactly its stored document, and there are no more entries than ids |
| `Listing.ReadRecordsComplete` | frontend/web/src/App.tsx:96-115 | Every index id whose record reads back gets an entry |
| `Listing.ReadRecordsInOrder` | frontend/web/src/App.tsx:96-115 | The entries' ids are exactly the readable index ids, in index order, with an id listed twice shown twice |
| `Listing.Insert` | frontend/web/src/App.tsx:116 | Inserting into a newest-first list keeps it newest first and adds exactly that element |
| `Listing.SortNewestFirst` | frontend/web/src/App.tsx:116 | The sort gives non-increasing timestamps and a permutation of its input |
| `Listing.LoadExhibits` | frontend/web/src/App.tsx:72-120 | Without a handle, or with an unavailable backend, the list stays as it was; otherwise it is a newest-first permutation of the readable listed records |
| `Listing.LoadShowsReadableListed` | frontend/web/src/App.tsx:85-117 | A reload shows exactly the listed ids whose records are readable, each as stored |
| `Listing.ShownWhenReadable` | frontend/web/src/App.tsx:97-111 | A listed id with a readable record appears after a reload with its stored document |
| `Listing.Distribution` | frontend/web/src/App.tsx:50-54 | The chart has a bar for exactly the lower-cased emotions that occur in the list |
| `Listing.DistributionCounts` | frontend/web/src/App.tsx:50-54 | Each bar counts exactly the exhibits of its emotion, and an emotion without a bar has none |
| `Recommend.TagOf` | frontend/web/src/App.tsx:205-230 | A table key found for a string is named by that string |
| `Recommend.TagOfName` | frontend/web/src/App.tsx:205-230 | Every tag's name finds that tag |
| `Recommend.Row` | frontend/web/src/App.tsx:206-230 | Each tag has three well-formed seeds |
| `Recommend.Recommend` | frontend/web/src/App.tsx:204-234 | A tag name gives its three seeds; an inherited member name gives that member; any other string gives no seeds |
| `Recommend.RecommendTag` | frontend/web/src/App.tsx:233 | Looking up a tag's own name gives that tag's row |
| `Recommend.InheritedLookup` | frontend/web/src/App.tsx:233 | For an `Object.prototype` member name: it is not a table key, and its lookup gives the member |
| `Submission.DrawnId` | frontend/web/src/App.tsx:143-167 | Mood and exhibit ids start with their tag (`mood-` or `exhibit-`) and are never `"keys"` |
| `Submission.EncodablePrefix` | frontend/web/src/App.tsx:166-175 | The loop gets past exactly the seeds before the first one whose JSON is not Latin-1 |
| `Submission.SeedEntries` | frontend/web/src/App.tsx:165-188 | The exhibit entries are those of the longest prefix of seeds whose JSON encrypts; the plan stops exactly when a seed's JSON is not Latin-1 |
| `Submission.SubmissionPlan` | frontend/web/src/App.tsx:143-175 | The first entry is the encrypted mood under its fresh id; an inherited member stops the plan as not iterable, any other stop is an unencodable seed |
| `Submission.WritesDone` | frontend/web/src/App.tsx:146-187 | Fewer writes happen than planned exactly when a planned write throws |
| `Submission.RunPlan` | frontend/web/src/App.tsx:146-197 | The writes made are a prefix of the plan's appends, and the store is what they leave. The run fails on a write exactly when the throwing write is within the plan, after exactly that many writes. It succeeds exactly when nothing throws and the plan is complete, and only then reloads the list |
| `Submission.PlanLength` | frontend/web/src/App.tsx:163-175 | An inherited member leaves only the mood and stops as not iterable; otherwise there is at most one entry per seed after the mood, and all of them exactly when the plan does not stop |
| `Submission.PlanNumbering` | frontend/web/src/App.tsx:166-177 | Every entry after the mood is an exhibit under the id drawn for its position |
| `Submission.MoodThenNumbered` | frontend/web/src/App.tsx:146-187 | A mood entry followed by numbered exhibit entries adds the mood id to the mood index and the drawn ids, in order, to the exhibit index |
| `Submission.PlanShape` | frontend/web/src/App.tsx:143-188 | The plan adds exactly its mood id to the mood index and the ids drawn from position 0 to the exhibit index; no planned id is `"keys"` |
| `Submission.PlanAppendable` | frontend/web/src/App.tsx:146-177 | No planned id is `"keys"` and no planned record is empty |
| `Submission.Submit` | frontend/web/src/App.tsx:122-201 | Given the table lookup's result: disconnected runs write nothing. Any writes are a prefix of the plan's appends, made only with a signer and an encodable mood. A run is Submitted exactly when it is connected, has a signer and an encodable mood, and carries out a complete plan with no throwing write; only such a run reloads the list |
| `Submission.SubmitKeepsConsistent` | frontend/web/src/App.tsx:146-187 | Whatever happens, including a throw part-way, every listed mood or exhibit id keeps a stored record |
| `Submission.SubmitIndexes` | frontend/web/src/App.tsx:146-187 | A successful run adds its mood id to the mood index and one fresh id per seed to the exhibit index, in order, with two writes per record |
| `Submission.PlanDistinct` | frontend/web/src/App.tsx:143-167 | With distinct drawn exhibit ids, the plan's record keys are distinct |
| `Submission.MoodRecordReadable` | frontend/web/src/App.tsx:129-146 | After a plan's appends, the mood record decrypts back to the mood's JSON, whatever ids were drawn for the exhibits |
| `Submission.SubmittedRecords` | frontend/web/src/App.tsx:129-177 | After success, the mood record decrypts to the mood's JSON; when the drawn exhibit ids differ, each new exhibit record is the seed's document, whose data decrypts to the seed's JSON |
| `Submission.SubmitMood` | frontend/web/src/App.tsx:122-201 | With the table's own lookup: disconnected runs write nothing, no run makes more than eight writes, and an inherited member name never succeeds |
| `Submission.SubmitSucceeds` | frontend/web/src/App.tsx:122-190 | For `submitMood` with the table's own lookup: with a wallet, a signer, a tag emotion, Latin-1 texts and no failing write, the run is Submitted after eight writes |
| `Submission.SubmitStopsOnInherited` | frontend/web/src/App.tsx:163-166 | For `submitMood` with the table's own lookup, an inherited member name never reaches Submitted and writes at most the mood. With no failing write and any writes at all, it fails as not iterable |
| `Submission.LookupOffersAtMostThree` | frontend/web/src/App.tsx:204-234 | The table never offers more than three seeds, so three drawn ids cover every lookup |
| `Submission.SubmittedShowsNewExhibits` | frontend/web/src/App.tsx:189-191 | With the backend available and distinct drawn exhibit ids, after success the reloaded list shows every new exhibit id, matched to the submitted emotion and carrying the seed's name and location |
| `Reveal.Challenge` | frontend/web/src/App.tsx:240 | For a session whose key and address are one line each, the challenge splits into exactly the five labelled lines, in order |
| `Reveal.ParseChallengeRoundTrip` | frontend/web/src/App.tsx:240 | For a session whose public key and address are one line each, the challenge text reads back as that session |
| `Reveal.ChallengeInjective` | frontend/web/src/App.tsx:240 | Two sessions whose keys and addresses are one line each have the same challenge exactly when they are equal |
| `Reveal.DecryptWithSignature` | frontend/web/src/App.tsx:236-246 | The wallet is asked exactly when connected, and with the session's challenge; text comes back only after signing, and a signed reveal always returns the decryption of the stored text (including an untagged text passed through) |
| `Reveal.SignedRevealRecovers` | frontend/web/src/App.tsx:240-243 | A signed reveal of client-encrypted data gives back that data |
| `Reveal.HandleDecrypt` | frontend/web/src/App.tsx:673-677 | Shown content is hidden without asking the wallet; otherwise the wallet is asked as in a reveal. The content becomes the revealed text exactly when that text is truthy, and otherwise stays as it was |
| `Reveal.ShowThenHide` | frontend/web/src/App.tsx:673-677 | A click that reveals something is undone by the next click |
| `Reveal.RevealShowsData` | frontend/web/src/App.tsx:675-676 | A signed reveal of non-empty client-encrypted data shows exactly that data |
| `Reveal.RevealRefused` | frontend/web/src/App.tsx:675-676 | Without a wallet, or after a refusal, the content does not change; only a connected attempt reaches the wallet |
| `Reveal.EmptyRevealShowsNothing` | frontend/web/src/App.tsx:676 | Revealing the encryption of `""` shows nothing, because `""` is falsy |
| `Availability.ReloadFollowsProbe` | frontend/web/src/App.tsx:75-83 | Unless the availability probe reports the backend ready, a reload keeps the list; when it is ready, the reload shows the backend's readable listed records, newest first |
| `Availability.CheckAvailability` | frontend/web/src/App.tsx:248-277 | No handle shows no banner. A positive answer gives the only success banner; a negative answer and an exception each give their own error message |

## Left out

- UTF-8 and JSON are not implemented. `Records.Formats` carries `toUtf8`, `toUtf8String`, `JSON.stringify` and `JSON.parse` as functions. The lemmas assume only the laws `Utf8Law`, `IdsLaw`, `DocLaw` and `Latin1Law`: parsing undoes stringifying, blank text does not parse, and stringifying Latin-1 fields gives Latin-1.
- An index that parses to a JSON value other than an array of strings is not modelled; `parseIds` either gives a list of ids or fails.
- `Listing.ReadRecord`: a record whose JSON parses to something other than an exhibit object (`{}`, `5`, an object missing fields) is not modelled; `parseDoc` either gives a complete document or fails. This client never writes such a record. The client itself lists one, with `undefined` fields (App.tsx:102-111), and the `toLowerCase()` call on its emotion then throws while rendering (App.tsx:51, 433).
- A throwing `getData` is not modelled, in the listing or in the append path, and neither are transport errors. Only a throwing `setData` is modelled, through `failAt`.
- A throwing `isAvailable` in `loadExhibits` is not modelled; a reload either reads an available backend or keeps the list.
- Every table entry calls `Date.now()` separately; one lookup time stands for all of them.
- The status messages, the `setSubmitting` / `setIsRefreshing` / `setIsDecrypting` flags and the 3 s and 1.5 s delays do not affect what is stored or shown, so they are left out.
- `Availability.CheckAvailability`: the banner hides again after 3 s through a timer, which is not modelled.
- The chart's bar widths are not modelled; only the counts are.
- Public-key generation (`generatePublicKey`) and the session parameters are inputs. A non-numeric chain id (`NaN`) is not modelled, and neither are numbers printed in exponent notation (beyond 1e21) or non-integers.
- `Text.Lower` lower-cases Latin-1 letters only; the rest of Unicode case mapping is left out.
- `Listing.Distribution`: an emotion named after an inherited `Object.prototype` member (such as `constructor`) makes JavaScript add 1 to a function, concatenating strings. The model counts it like any other emotion.
- `Listing.SortNewestFirst`: the sort is stable, but the contract does not state stability; it states order and permutation.
- `Submission.SubmittedShowsNewExhibits` and `Submission.PlanDistinct` take `DistinctDraws(d, SeedCount(look))` as a hypothesis, and `Submission.SubmittedRecords` states its exhibit half under it: the exhibit ids drawn for the lookup's seeds differ (at most three, by `Submission.LookupOffersAtMostThree`). The mood record needs no such hypothesis. Ids combine a millisecond clock with four random base-36 digits, so a clash is possible, and after one the later record overwrites the earlier.
- `Submission.SubmitSucceeds`: takes `TableLatin1` as a hypothesis, meaning every field of every table entry is Latin-1, instead of proving it character by character from the literals. Every literal in the table is plain ASCII.
- `KeyedStore.AppendWrites`, `KeyedStore.AppendAllIndex`, `Submission.SubmitIndexes` and `Submission.SubmittedShowsNewExhibits` assume one writer. They also assume that every `setData` has taken effect before the next `getData` reads the index.
  - In the client, `await contract.setData(...)` returns once the transaction is sent, not once it is mined. The index re-read at App.tsx:149 and 180 can therefore miss a pending earlier index write, and the push then drops that id.
  - Two sessions appending at the same time can lose ids the same way.
  - A reverted transaction writes nothing.
  - The model treats every write as applied immediately and in order, so it does not cover any of these cases.
- `Submission.RunPlan`: the reload after a successful run assumes that `getContractReadOnly()` gives a handle again. When it gives none, `loadExhibits` returns early and the list stays as it was; the model does not cover that case. `Submission.Submit` and `Submission.SubmitMood` inherit this.
- `Submission.Submit`: the exception's message text (`"Submission failed: " + message`) is not modelled; the failure is a `Cause`.

## Behaviour worth noting

- An exhibit record's `data` field is the encryption of the seed's whole JSON (App.tsx:173), not of the mood.
- Nothing de-duplicates ids in an index: every append pushes (App.tsx:155, 186). An id listed twice is shown twice.
- The table lookup at App.tsx:233 uses a plain object. A mood named after an `Object.prototype` member (`constructor`, `toString`, ...) therefore finds that member, not an empty list. The member is truthy and not iterable, so the submission fails after the mood is stored. Only other names that are not table keys give no recommendations.
- One stored exhibit record whose JSON is not an exhibit object breaks the page. It is listed with `undefined` fields (App.tsx:102-111), so `exhibit.emotionMatch.toLowerCase()` throws in the chart (App.tsx:51) and in the list (App.tsx:433). A non-numeric `timestamp` also makes the sort comparator at App.tsx:116 return `NaN`.
- An exhibit whose data decrypts to `""` cannot be revealed, because `""` is falsy at App.tsx:676.

=== FILE: availability.dfy ===
/** `checkAvailability`: the read-only contract is asked whether it is
    available and the answer becomes a status banner. The same answer
    decides whether a reload changes the displayed list. */
module Availability {
  import opened Wrappers
  import opened Records
  import opened KeyedStore
  import opened Listing

  /** How the probe went: no read-only handle, an answer, or an exception
      from getting the handle or calling `isAvailable`. */
  datatype Probe = NoHandle | Answered(available: bool) | Threw

  datatype Tone = Success | Error

  /** The banner shown (and hidden again after three seconds). */
  datatype Banner = Banner(tone: Tone, message: string)

  const ReadyMessage := "FHE contract is available and ready to process your mood!"
  const UnavailableMessage := "Contract is currently unavailable"
  const ProbeErrorMessage := "Error checking contract availability"

  /** No handle shows nothing; otherwise exactly one banner, a success one
      only for a positive answer, each with its own message. */
  function CheckAvailability(probe: Probe): (b: Option<Banner>)
    ensures b.None? <==> probe == NoHandle
    ensures b.Some? && b.value.tone == Success <==> probe == Answered(true)
    ensures b.Some? && b.value.message == UnavailableMessage <==> probe == Answered(false)
    ensures b.Some? && b.value.message == ProbeErrorMessage <==> probe == Threw
  {
    match probe
    case NoHandle => None
    case Answered(ok) =>
      if ok then Some(Banner(Success, ReadyMessage)) else Some(Banner(Error, UnavailableMessage))
    case Threw => Some(Banner(Error, ProbeErrorMessage))
  }

  /** The probe of a backend that answers. */
  function ProbeOf(handle: Option<Backend>): Probe {
    match handle
    case None => NoHandle
    case Some(b) => Answered(b.available)
  }

  /** Unless the probe reports the backend ready, a reload from the same
      backend leaves the displayed list as it was; when it is ready, the
      reload shows the backend's listing. */
  lemma ReloadFollowsProbe(f: Formats, handle: Option<Backend>, current: seq<Exhibit>)
    ensures var banner := CheckAvailability(ProbeOf(handle));
      && (!(banner.Some? && banner.value.tone == Success) ==> LoadExhibits(f, handle, current) == current)
      && (banner.Some? && banner.value.tone == Success ==>
            && handle.Some?
            && LoadExhibits(f, handle, current)
                 == SortNewestFirst(ReadRecords(f, handle.value.data, ListIds(f, handle.value.data, Exhibits)))
            && NewestFirst(LoadExhibits(f, handle, current)))
  {
  }
}

=== FILE: base64.dfy ===
/** The two browser primitives behind the web client's stand-in encryption:
    `btoa`, base64 encoding as defined in section 4 of RFC 4648 applied to a
    string whose characters are bytes, and `atob`, the WHATWG
    "forgiving-base64 decode" that undoes it. */
module Base64 {
  import opened Wrappers
  import opened Text

  /** A decoded 6-bit group. */
  predicate Sextets(vs: seq<int>) {
    forall i :: 0 <= i < |vs| ==> 0 <= vs[i] < 64
  }

  /** Byte values. */
  predicate Octets(bs: seq<int>) {
    forall i :: 0 <= i < |bs| ==> 0 <= bs[i] < 256
  }

  predicate InAlphabet(c: char) {
    || ('A' <= c <= 'Z') || ('a' <= c <= 'z') || ('0' <= c <= '9')
    || c == '+' || c == '/'
  }

  /** The value of one alphabet character. */
  function SextetValue(c: char): (v: int)
    requires InAlphabet(c)
    ensures 0 <= v < 64
  {
    if 'A' <= c <= 'Z' then c as int - 'A' as int
    else if 'a' <= c <= 'z' then c as int - 'a' as int + 26
    else if '0' <= c <= '9' then c as int - '0' as int + 52
    else if c == '+' then 62
    else 63
  }

  /** The alphabet character for a 6-bit value. */
  function SextetChar(v: int): (c: char)
    requires 0 <= v < 64
    ensures InAlphabet(c) && SextetValue(c) == v
  {
    if v < 26 then ('A' as int + v) as char
    else if v < 52 then ('a' as int + (v - 26)) as char
    else if v < 62 then ('0' as int + (v - 52)) as char
    else if v == 62 then '+'
    else '/'
  }

  function Chars(vs: seq<int>): (s: string)
    requires Sextets(vs)
    ensures |s| == |vs|
    ensures forall i :: 0 <= i < |s| ==> InAlphabet(s[i]) && SextetValue(s[i]) == vs[i]
  {
    seq(|vs|, i requires 0 <= i < |vs| => SextetChar(vs[i]))
  }

  predicate AllInAlphabet(s: string) {
    forall i :: 0 <= i < |s| ==> InAlphabet(s[i])
  }

  function Values(s: string): (vs: seq<int>)
    requires AllInAlphabet(s)
    ensures |vs| == |s| && Sextets(vs)
  {
    seq(|s|, i requires 0 <= i < |s| => SextetValue(s[i]))
  }

  function Codes(s: string): (bs: seq<int>)
    requires IsLatin1(s)
    ensures |bs| == |s| && Octets(bs)
  {
    seq(|s|, i requires 0 <= i < |s| => s[i] as int)
  }

  function FromCodes(bs: seq<int>): (s: string)
    requires Octets(bs)
    ensures |s| == |bs| && IsLatin1(s)
    ensures forall i :: 0 <= i < |s| ==> s[i] as int == bs[i]
  {
    seq(|bs|, i requires 0 <= i < |bs| => bs[i] as char)
  }

  /** Number of alphabet characters (padding excluded) for `n` bytes. */
  function SextetCount(n: nat): nat {
    4 * (n / 3) + (if n % 3 == 0 then 0 else n % 3 + 1)
  }

  /** Three bytes become four sextets; a final one or two bytes become two or
      three sextets whose unused low bits are zero. */
  function ToSextets(bs: seq<int>): (vs: seq<int>)
    requires Octets(bs)
    ensures Sextets(vs)
    ensures |vs| == SextetCount(|bs|)
    decreases |bs|
  {
    if |bs| >= 3 then
      [bs[0] / 4, (bs[0] % 4) * 16 + bs[1] / 16, (bs[1] % 16) * 4 + bs[2] / 64, bs[2] % 64]
      + ToSextets(bs[3..])
    else if |bs| == 2 then
      [bs[0] / 4, (bs[0] % 4) * 16 + bs[1] / 16, (bs[1] % 16) * 4]
    else if |bs| == 1 then
      [bs[0] / 4, (bs[0] % 4) * 16]
    else []
  }

  /** Four sextets become three bytes; a final two or three sextets become one
      or two bytes, the leftover bits discarded. A lone final sextet, which
      `atob` rejects before decoding, gives nothing. */
  function FromSextets(vs: seq<int>): (bs: seq<int>)
    requires Sextets(vs)
    ensures Octets(bs)
    decreases |vs|
  {
    if |vs| >= 4 then
      [vs[0] * 4 + vs[1] / 16, (vs[1] % 16) * 16 + vs[2] / 4, (vs[2] % 4) * 64 + vs[3]]
      + FromSextets(vs[4..])
    else if |vs| == 3 then
      [vs[0] * 4 + vs[1] / 16, (vs[1] % 16) * 16 + vs[2] / 4]
    else if |vs| == 2 then
      [vs[0] * 4 + vs[1] / 16]
    else []
  }

  function Padding(n: nat): string {
    if n % 3 == 1 then "==" else if n % 3 == 2 then "=" else ""
  }

  /** `btoa`: throws (here `None`) on a character above U+00FF, otherwise the
      padded base64 text, four characters per three input characters. */
  function Btoa(s: string): (r: Option<string>)
    ensures r.Some? <==> IsLatin1(s)
    ensures r.Some? ==> |r.value| == 4 * ((|s| + 2) / 3)
  {
    if IsLatin1(s) then Some(Chars(ToSextets(Codes(s))) + Padding(|s|)) else None
  }

  /** The white space `atob` ignores. */
  predicate IsAsciiWhitespace(c: char) {
    c == '\t' || c == '\n' || c == '\U{000C}' || c == '\r' || c == ' '
  }

  function RemoveAsciiWhitespace(s: string): (r: string)
    ensures |r| <= |s|
    ensures forall i :: 0 <= i < |r| ==> !IsAsciiWhitespace(r[i])
  {
    if |s| == 0 then ""
    else if IsAsciiWhitespace(s[0]) then RemoveAsciiWhitespace(s[1..])
    else [s[0]] + RemoveAsciiWhitespace(s[1..])
  }

  /** When the length is a multiple of four, one or two trailing `=` go. */
  function RemovePadding(s: string): string {
    if |s| % 4 != 0 then s
    else if |s| >= 2 && s[|s| - 2..] == "==" then s[..|s| - 2]
    else if |s| >= 1 && s[|s| - 1] == '=' then s[..|s| - 1]
    else s
  }

  /** `atob`: forgiving-base64 decode. Fails (here `None`) when, after
      white space and padding are removed, the length leaves remainder 1
      modulo 4 or a character lies outside the alphabet. */
  function Atob(s: string): (r: Option<string>)
    ensures r.Some? ==> IsLatin1(r.value)
  {
    var d := RemovePadding(RemoveAsciiWhitespace(s));
    if |d| % 4 == 1 || !AllInAlphabet(d) then None
    else Some(FromCodes(FromSextets(Values(d))))
  }

  lemma SextetCountRemainder(n: nat)
    ensures SextetCount(n) % 4 == (if n % 3 == 0 then 0 else n % 3 + 1)
    ensures SextetCount(n) % 4 != 1
  {
    var x := if n % 3 == 0 then 0 else n % 3 + 1;
    assert SextetCount(n) == 4 * (n / 3) + x;
    ModFour(n / 3, x);
  }

  lemma ModFour(q: nat, x: nat)
    requires x < 4
    ensures (4 * q + x) % 4 == x
  {
  }

  /** Decoding the sextets of a byte sequence restores it. */
  lemma {:induction false} FromToSextets(bs: seq<int>)
    requires Octets(bs)
    ensures SextetCount(|bs|) % 4 != 1
    ensures FromSextets(ToSextets(bs)) == bs
    decreases |bs|
  {
    SextetCountRemainder(|bs|);
    var vs := ToSextets(bs);
    if |bs| >= 3 {
      var rest := ToSextets(bs[3..]);
      assert vs[4..] == rest;
      FromToSextets(bs[3..]);
      assert bs == bs[..3] + bs[3..];
    }
  }

  lemma NoWhitespaceUnchanged(s: string)
    requires forall i :: 0 <= i < |s| ==> !IsAsciiWhitespace(s[i])
    ensures RemoveAsciiWhitespace(s) == s
  {
    if |s| > 0 {
      NoWhitespaceUnchanged(s[1..]);
      assert s == [s[0]] + s[1..];
    }
  }

  /** The padded text loses exactly its padding in `RemovePadding`. */
  lemma PaddingRemoved(vs: seq<int>, n: nat)
    requires Sextets(vs) && |vs| == SextetCount(n)
    ensures RemovePadding(Chars(vs) + Padding(n)) == Chars(vs)
  {
    SextetCountRemainder(n);
    var body := Chars(vs);
    var e := body + Padding(n);
    assert |e| % 4 == 0;
    if n % 3 == 1 {
      assert e[|e| - 2..] == "==";
      assert e[..|e| - 2] == body;
    } else if n % 3 == 2 {
      assert e[|e| - 2] == body[|body| - 1];
      assert e[|e| - 2..] != "==";
      assert e[..|e| - 1] == body;
    } else if |body| > 0 {
      assert e == body;
      assert InAlphabet(e[|e| - 1]);
    }
  }

  lemma PaddedHasNoWhitespace(vs: seq<int>, n: nat)
    requires Sextets(vs)
    ensures RemoveAsciiWhitespace(Chars(vs) + Padding(n)) == Chars(vs) + Padding(n)
  {
    var body := Chars(vs);
    var e := body + Padding(n);
    forall i | 0 <= i < |e| ensures !IsAsciiWhitespace(e[i]) {
      if i < |body| { assert e[i] == body[i]; }
    }
    NoWhitespaceUnchanged(e);
  }

  /** `atob(btoa(s)) == s` for every string `btoa` accepts. */
  lemma {:induction false} AtobBtoa(s: string)
    requires IsLatin1(s)
    ensures Atob(Btoa(s).value) == Some(s)
  {
    var bs := Codes(s);
    var vs := ToSextets(bs);
    var body := Chars(vs);
    PaddedHasNoWhitespace(vs, |s|);
    PaddingRemoved(vs, |s|);
    SextetCountRemainder(|s|);
    assert Values(body) == vs;
    FromToSextets(bs);
    assert FromCodes(bs) == s;
  }
}

=== FILE: codec.dfy ===
/** The client's stand-in for homomorphic encryption: a tag followed by
    base64. Decoding strips the tag; untagged text passes through. */
module Codec {
  import opened Wrappers
  import opened Text
  import Base64

  const Tag: string := "FHE-"

  /** `FHEEncryption`: `"FHE-" + btoa(data)`. Like `btoa` it throws (here
      `None`) when `data` holds a character above U+00FF. */
  function Encrypt(data: string): (r: Option<string>)
    ensures r.Some? <==> IsLatin1(data)
    ensures r.Some? ==> StartsWith(r.value, Tag)
    ensures r.Some? ==> |r.value| == |Tag| + 4 * ((|data| + 2) / 3)
  {
    match Base64.Btoa(data)
    case None => None
    case Some(b) => Some(Tag + b)
  }

  /** `FHEDecryption`: a tagged string is base64-decoded after the tag (and
      `atob` may throw, here `None`); any other string comes back unchanged. */
  function Decrypt(s: string): (r: Option<string>)
    ensures !StartsWith(s, Tag) ==> r == Some(s)
    ensures StartsWith(s, Tag) && r.Some? ==> IsLatin1(r.value)
  {
    if StartsWith(s, Tag) then Base64.Atob(s[|Tag|..]) else Some(s)
  }

  /** Decrypting what was encrypted gives the plaintext back. */
  lemma DecryptEncrypt(data: string)
    requires IsLatin1(data)
    ensures Encrypt(data).Some?
    ensures Decrypt(Encrypt(data).value) == Some(data)
  {
    var e := Encrypt(data).value;
    assert e[|Tag|..] == Base64.Btoa(data).value;
    Base64.AtobBtoa(data);
  }
}

=== FILE: listing.dfy ===
/** Reading the exhibit collection back for display: every listed id's
    record is looked up, absent or unreadable records are skipped, the rest
    are ordered newest first; and the per-emotion counts of the chart. */
module Listing {
  import opened Wrappers
  import opened Text
  import opened Records
  import opened KeyedStore

  /** The backend as a read-only contract handle sees it. */
  datatype Backend = Backend(data: Store, available: bool)

  /** The document stored under `"exhibit_<id>"`, when its bytes are present,
      decode and parse. */
  function ReadRecord(f: Formats, s: Store, id: string): Option<ExhibitDoc> {
    var bytes := Get(s, RecordKey(Exhibits, id));
    if |bytes| == 0 then None
    else match f.fromUtf8(bytes)
      case None => None
      case Some(text) => f.parseDoc(text)
  }

  /** A record written as the UTF-8 bytes of a document's JSON reads back
      as that document; a record with no bytes reads as nothing. */
  lemma ReadRecordWritten(f: Formats, s: Store, id: string, d: ExhibitDoc)
    requires Utf8Law(f) && DocLaw(f)
    ensures Get(s, RecordKey(Exhibits, id)) == f.toUtf8(f.stringifyDoc(d)) ==> ReadRecord(f, s, id) == Some(d)
    ensures Get(s, RecordKey(Exhibits, id)) == [] ==> ReadRecord(f, s, id) == None
  {
    StringifiedDocNonEmpty(f, d);
    assert f.fromUtf8(f.toUtf8(f.stringifyDoc(d))) == Some(f.stringifyDoc(d));
    assert f.parseDoc(f.stringifyDoc(d)) == Some(d);
  }

  /** The listed exhibit built from a stored document. */
  function ToExhibit(id: string, d: ExhibitDoc): Exhibit {
    Exhibit(id, d.name, d.description, d.emotionMatch, d.location, d.data, d.timestamp)
  }

  /** The stored document an exhibit was built from. */
  function DocOf(e: Exhibit): ExhibitDoc {
    ExhibitDoc(e.name, e.description, e.emotionMatch, e.location, e.encryptedData, e.timestamp)
  }

  /** The exhibits of `ids`, in index order, skipping ids whose record is
      absent or does not parse. Each entry is exactly its stored document
      (its `encryptedData` is the stored `data`), and every readable id
      yields an entry. */
  function ReadRecords(f: Formats, s: Store, ids: seq<string>): (r: seq<Exhibit>)
    ensures |r| <= |ids|
    ensures forall i :: 0 <= i < |r| ==>
      r[i].id in ids && ReadRecord(f, s, r[i].id) == Some(DocOf(r[i]))
    decreases |ids|
  {
    if ids == [] then []
    else
      var rest := ReadRecords(f, s, ids[1..]);
      assert ids == [ids[0]] + ids[1..];
      match ReadRecord(f, s, ids[0])
      case None => rest
      case Some(d) =>
        var r := [ToExhibit(ids[0], d)] + rest;
        assert r[0].id == ids[0];
        r
  }

  /** Some entry of `r` carries `id`. */
  predicate HasId(r: seq<Exhibit>, id: string) {
    exists i :: 0 <= i < |r| && r[i].id == id
  }

  /** Every listed id whose record reads back has an exhibit in the
      result. */
  lemma {:induction false} ReadRecordsComplete(f: Formats, s: Store, ids: seq<string>, id: string)
    requires id in ids && ReadRecord(f, s, id).Some?
    ensures HasId(ReadRecords(f, s, ids), id)
    decreases |ids|
  {
    var r := ReadRecords(f, s, ids);
    if id == ids[0] {
      assert r[0].id == id;
    } else {
      assert id in ids[1..];
      ReadRecordsComplete(f, s, ids[1..], id);
      var rest := ReadRecords(f, s, ids[1..]);
      var j :| 0 <= j < |rest| && rest[j].id == id;
      if ReadRecord(f, s, ids[0]).Some? {
        assert r[j + 1] == rest[j];
      } else {
        assert r == rest;
      }
    }
  }

  /** The ids of a list of exhibits, in order. */
  function IdsOf(r: seq<Exhibit>): (ids: seq<string>)
    ensures |ids| == |r|
    ensures forall i :: 0 <= i < |r| ==> ids[i] == r[i].id
  {
    if r == [] then [] else [r[0].id] + IdsOf(r[1..])
  }

  /** The ids of `ids` whose record reads back, in index order and with
      repetitions kept. */
  function Readable(f: Formats, s: Store, ids: seq<string>): seq<string>
    decreases |ids|
  {
    if ids == [] then []
    else (if ReadRecord(f, s, ids[0]).Some? then [ids[0]] else []) + Readable(f, s, ids[1..])
  }

  /** The listing holds one entry per readable index id, in index order:
      an id listed twice in the index is shown twice. */
  lemma {:induction false} ReadRecordsInOrder(f: Formats, s: Store, ids: seq<string>)
    ensures IdsOf(ReadRecords(f, s, ids)) == Readable(f, s, ids)
    decreases |ids|
  {
    if ids != [] {
      ReadRecordsInOrder(f, s, ids[1..]);
      var rest := ReadRecords(f, s, ids[1..]);
      match ReadRecord(f, s, ids[0])
      case None =>
      case Some(d) =>
        var r := [ToExhibit(ids[0], d)] + rest;
        assert r[1..] == rest;
    }
  }

  /** Non-increasing timestamps. */
  predicate NewestFirst(xs: seq<Exhibit>) {
    forall i, j :: 0 <= i < j < |xs| ==> xs[i].timestamp >= xs[j].timestamp
  }

  /** Dropping the newest element keeps the order. */
  lemma NewestFirstTail(xs: seq<Exhibit>)
    requires xs != [] && NewestFirst(xs)
    ensures NewestFirst(xs[1..])
  {
    var ys := xs[1..];
    forall i, j | 0 <= i < j < |ys| ensures ys[i].timestamp >= ys[j].timestamp {
      assert ys[i] == xs[i + 1] && ys[j] == xs[j + 1];
    }
  }

  /** An element at least as new as the head of an ordered list can go in
      front of it. */
  lemma NewestFirstCons(y: Exhibit, ys: seq<Exhibit>)
    requires NewestFirst(ys)
    requires ys != [] ==> y.timestamp >= ys[0].timestamp
    ensures NewestFirst([y] + ys)
  {
    var r := [y] + ys;
    forall i, j | 0 <= i < j < |r| ensures r[i].timestamp >= r[j].timestamp {
      assert r[j] == ys[j - 1];
      if i == 0 {
        assert ys[0].timestamp >= ys[j - 1].timestamp;
      } else {
        assert r[i] == ys[i - 1];
      }
    }
  }

  /** Places `x` after every element at least as new, keeping the order. */
  function Insert(x: Exhibit, xs: seq<Exhibit>): (r: seq<Exhibit>)
    requires NewestFirst(xs)
    ensures NewestFirst(r)
    ensures multiset(r) == multiset(xs) + multiset{x}
    ensures r[0] == x || (xs != [] && r[0] == xs[0])
    decreases |xs|
  {
    if xs == [] then [x]
    else if xs[0].timestamp >= x.timestamp then
      NewestFirstTail(xs);
      var rest := Insert(x, xs[1..]);
      assert xs[0].timestamp >= rest[0].timestamp by {
        if rest[0] != x { assert rest[0] == xs[1]; }
      }
      NewestFirstCons(xs[0], rest);
      assert xs == [xs[0]] + xs[1..];
      [xs[0]] + rest
    else
      NewestFirstCons(x, xs);
      [x] + xs
  }

  /** `list.sort((a, b) => b.timestamp - a.timestamp)`: a stable sort,
      newest first. */
  function SortNewestFirst(xs: seq<Exhibit>): (r: seq<Exhibit>)
    ensures NewestFirst(r)
    ensures multiset(r) == multiset(xs)
    decreases |xs|
  {
    if xs == [] then []
    else
      assert xs == xs[..|xs| - 1] + [xs[|xs| - 1]];
      Insert(xs[|xs| - 1], SortNewestFirst(xs[..|xs| - 1]))
  }

  /** `loadExhibits`: without a contract handle, or when the backend says it
      is unavailable, the displayed list stays as it was; otherwise it
      becomes the readable listed exhibits, newest first. */
  function LoadExhibits(f: Formats, handle: Option<Backend>, current: seq<Exhibit>): (r: seq<Exhibit>)
    ensures handle.None? || !handle.value.available ==> r == current
    ensures handle.Some? && handle.value.available ==>
      var s := handle.value.data;
      && NewestFirst(r)
      && multiset(r) == multiset(ReadRecords(f, s, ListIds(f, s, Exhibits)))
  {
    match handle
    case None => current
    case Some(b) =>
      if !b.available then current
      else SortNewestFirst(ReadRecords(f, b.data, ListIds(f, b.data, Exhibits)))
  }

  /** What a reload shows: exactly the listed exhibits whose records are
      readable, each as stored, newest first. */
  lemma LoadShowsReadableListed(f: Formats, b: Backend, current: seq<Exhibit>)
    requires b.available
    ensures var r := LoadExhibits(f, Some(b), current);
      var ids := ListIds(f, b.data, Exhibits);
      && NewestFirst(r)
      && (forall e :: e in r ==> e.id in ids && ReadRecord(f, b.data, e.id) == Some(DocOf(e)))
      && (forall id :: id in ids && ReadRecord(f, b.data, id).Some? ==>
            exists e :: e in r && e.id == id)
  {
    var r := LoadExhibits(f, Some(b), current);
    var ids := ListIds(f, b.data, Exhibits);
    var rr := ReadRecords(f, b.data, ids);
    SameMembers(r, rr);
    forall e | e in r ensures e.id in ids && ReadRecord(f, b.data, e.id) == Some(DocOf(e)) {
      var i :| 0 <= i < |rr| && rr[i] == e;
    }
    forall id | id in ids && ReadRecord(f, b.data, id).Some? ensures exists e :: e in r && e.id == id {
      ReadRecordsComplete(f, b.data, ids, id);
      var i :| 0 <= i < |rr| && rr[i].id == id;
      assert rr[i] in r;
    }
  }

  /** Two lists with the same multiset hold the same elements. */
  lemma SameMembers(a: seq<Exhibit>, b: seq<Exhibit>)
    requires multiset(a) == multiset(b)
    ensures forall e :: e in a <==> e in b
  {
    forall e ensures e in a <==> e in b {
      assert e in a <==> e in multiset(a);
      assert e in b <==> e in multiset(b);
    }
  }

  /** A listed id whose record reads back appears after a reload, as
      stored. */
  lemma ShownWhenReadable(f: Formats, b: Backend, current: seq<Exhibit>, id: string)
    requires b.available
    requires id in ListIds(f, b.data, Exhibits) && ReadRecord(f, b.data, id).Some?
    ensures exists e :: (e in LoadExhibits(f, Some(b), current) && e.id == id
                         && DocOf(e) == ReadRecord(f, b.data, id).value)
  {
    LoadShowsReadableListed(f, b, current);
    var e :| e in LoadExhibits(f, Some(b), current) && e.id == id;
  }

  // ---------------------------------------------------------------------
  // Emotion distribution

  /** `emotionDistribution`: a left fold counting exhibits per lower-cased
      `emotionMatch`. */
  function Distribution(xs: seq<Exhibit>): (m: map<string, nat>)
    ensures forall k :: k in m <==> exists i :: 0 <= i < |xs| && Lower(xs[i].emotionMatch) == k
    decreases |xs|
  {
    if xs == [] then map[]
    else
      var acc := Distribution(xs[..|xs| - 1]);
      var k := Lower(xs[|xs| - 1].emotionMatch);
      assert forall i :: 0 <= i < |xs| - 1 ==> xs[..|xs| - 1][i] == xs[i];
      acc[k := (if k in acc then acc[k] else 0) + 1]
  }

  /** The number of exhibits whose lower-cased emotion is `k`. */
  function CountEmotion(xs: seq<Exhibit>, k: string): nat
    decreases |xs|
  {
    if xs == [] then 0
    else (if Lower(xs[0].emotionMatch) == k then 1 else 0) + CountEmotion(xs[1..], k)
  }

  lemma {:induction false} CountEmotionSnoc(xs: seq<Exhibit>, x: Exhibit, k: string)
    ensures CountEmotion(xs + [x], k) == CountEmotion(xs, k) + (if Lower(x.emotionMatch) == k then 1 else 0)
    decreases |xs|
  {
    if xs != [] {
      assert (xs + [x])[1..] == xs[1..] + [x];
      CountEmotionSnoc(xs[1..], x, k);
    }
  }

  /** Each bar of the chart counts exactly the exhibits of its emotion, and
      an emotion without a bar has none. */
  lemma {:induction false} DistributionCounts(xs: seq<Exhibit>, k: string)
    ensures k in Distribution(xs) ==> Distribution(xs)[k] == CountEmotion(xs, k)
    ensures k !in Distribution(xs) ==> CountEmotion(xs, k) == 0
    decreases |xs|
  {
    if xs != [] {
      var init := xs[..|xs| - 1];
      var x := xs[|xs| - 1];
      assert xs == init + [x];
      DistributionCounts(init, k);
      CountEmotionSnoc(init, x, k);
    }
  }
}

=== FILE: recommend.dfy ===
/** `generateRecommendedExhibits`: a fixed table from five emotion tags to
    three exhibit seeds each, read with `exhibitsByEmotion[emotion] || []`. */
module Recommend {
  import opened Wrappers
  import opened Records

  /** The five emotions the table knows. */
  datatype Tag = Calm | Happy | Curious | Contemplative | Inspired {
    function Name(): string {
      match this
      case Calm => "calm"
      case Happy => "happy"
      case Curious => "curious"
      case Contemplative => "contemplative"
      case Inspired => "inspired"
    }
  }

  /** The table's own key equal to `emotion`, if any. */
  function TagOf(emotion: string): (t: Option<Tag>)
    ensures t.Some? ==> t.value.Name() == emotion
  {
    if emotion == "calm" then Some(Calm)
    else if emotion == "happy" then Some(Happy)
    else if emotion == "curious" then Some(Curious)
    else if emotion == "contemplative" then Some(Contemplative)
    else if emotion == "inspired" then Some(Inspired)
    else None
  }

  lemma TagOfName(t: Tag)
    ensures TagOf(t.Name()) == Some(t)
  {
  }

  /** Members every plain JavaScript object inherits from `Object.prototype`.
      Indexing the table with one of them yields that member (a function or
      an object): truthy, so `|| []` keeps it, and not iterable. */
  const InheritedNames: set<string> := {
    "constructor", "hasOwnProperty", "isPrototypeOf", "propertyIsEnumerable",
    "toString", "toLocaleString", "valueOf", "__proto__",
    "__defineGetter__", "__defineSetter__", "__lookupGetter__", "__lookupSetter__"
  }

  /** What the table lookup yields: a list of seeds, or an inherited member
      that the submission loop cannot iterate. */
  datatype Lookup = Seeds(seeds: seq<Exhibit>) | Inherited(member: string)

  /** A well-formed seed of `t`: named, located, matched to the tag, no
      encrypted data yet, and stamped with the lookup time. */
  predicate ValidSeed(e: Exhibit, t: Tag, now: int) {
    && e.name != "" && e.location != "" && e.emotionMatch == t.Name()
    && e.encryptedData == "" && e.timestamp == now
  }

  /** One entry of the table. Each entry calls `Date.now()`; here one
      lookup time `now` stands for all of them. */
  function Seed(id: string, name: string, description: string, t: Tag, location: string, now: int): (e: Exhibit)
    requires name != "" && location != ""
    ensures ValidSeed(e, t, now) && e.id == id
  {
    Exhibit(id, name, description, t.Name(), location, "", now)
  }

  /** The table's row for `calm`. */
  function CalmRow(now: int): (r: seq<Exhibit>)
    ensures |r| == 3
    ensures forall i :: 0 <= i < 3 ==> ValidSeed(r[i], Calm, now)
  {
    [
      Seed("1", "Serene Landscapes", "A collection of tranquil nature scenes", Calm, "Gallery A", now),
      Seed("2", "Zen Garden", "Traditional Japanese meditation garden", Calm, "Outdoor Garden", now),
      Seed("3", "Water Reflections", "Photography exhibition of water surfaces", Calm, "Hall B", now)
    ]
  }

  /** The table's row for `happy`. */
  function HappyRow(now: int): (r: seq<Exhibit>)
    ensures |r| == 3
    ensures forall i :: 0 <= i < 3 ==> ValidSeed(r[i], Happy, now)
  {
    [
      Seed("4", "Colorful Abstractions", "Vibrant abstract paintings", Happy, "Modern Wing", now),
      Seed("5", "Children's Art", "Playful creations by young artists", Happy, "Family Gallery", now),
      Seed("6", "Festival Masks", "Cultural masks from celebrations worldwide", Happy, "Cultural Hall", now)
    ]
  }

  /** The table's row for `curious`. */
  function CuriousRow(now: int): (r: seq<Exhibit>)
    ensures |r| == 3
    ensures forall i :: 0 <= i < 3 ==> ValidSeed(r[i], Curious, now)
  {
    [
      Seed("7", "Scientific Discoveries", "Exhibit on groundbreaking scientific findings", Curious, "Science Wing", now),
      Seed("8", "Ancient Mysteries", "Artifacts from lost civilizations", Curious, "History Hall", now),
      Seed("9", "Interactive Light", "Interactive light and sound installation", Curious, "Innovation Lab", now)
    ]
  }

  /** The table's row for `contemplative`. */
  function ContemplativeRow(now: int): (r: seq<Exhibit>)
    ensures |r| == 3
    ensures forall i :: 0 <= i < 3 ==> ValidSeed(r[i], Contemplative, now)
  {
    [
      Seed("10", "Philosophical Art", "Works that provoke deep thought", Contemplative, "East Wing", now),
      Seed("11", "Religious Icons", "Sacred art from various traditions", Contemplative, "Spirituality Room", now),
      Seed("12", "Minimalist Sculptures", "Simple forms with profound meaning", Contemplative, "Sculpture Garden", now)
    ]
  }

  /** The table's row for `inspired`. */
  function InspiredRow(now: int): (r: seq<Exhibit>)
    ensures |r| == 3
    ensures forall i :: 0 <= i < 3 ==> ValidSeed(r[i], Inspired, now)
  {
    [
      Seed("13", "Innovation Gallery", "Cutting-edge designs and inventions", Inspired, "Future Wing", now),
      Seed("14", "Visionary Artists", "Works by artists ahead of their time", Inspired, "Modern Masters", now),
      Seed("15", "Social Change", "Art that drives social transformation", Inspired, "Activism Corner", now)
    ]
  }

  /** The seeds of one tag, as the table lists them. */
  function Row(t: Tag, now: int): (r: seq<Exhibit>)
    ensures |r| == 3
    ensures forall i :: 0 <= i < 3 ==> ValidSeed(r[i], t, now)
  {
    match t
    case Calm => CalmRow(now)
    case Happy => HappyRow(now)
    case Curious => CuriousRow(now)
    case Contemplative => ContemplativeRow(now)
    case Inspired => InspiredRow(now)
  }

  /** The lookup: one of the five tags gives its three seeds, each with a
      name and a location and matched to that tag; any other string gives
      the inherited member of that name if there is one, and no seeds
      otherwise. */
  function Recommend(emotion: string, now: int): (r: Lookup)
    ensures TagOf(emotion).Some? ==>
      && r.Seeds? && |r.seeds| == 3
      && forall i :: 0 <= i < 3 ==> ValidSeed(r.seeds[i], TagOf(emotion).value, now)
    ensures TagOf(emotion).None? && emotion in InheritedNames ==> r == Inherited(emotion)
    ensures TagOf(emotion).None? && emotion !in InheritedNames ==> r == Seeds([])
  {
    match TagOf(emotion)
    case Some(t) => Seeds(Row(t, now))
    case None => if emotion in InheritedNames then Inherited(emotion) else Seeds([])
  }

  /** Looking up a tag's own name gives that tag's row. */
  lemma RecommendTag(t: Tag, now: int)
    ensures Recommend(t.Name(), now) == Seeds(Row(t, now))
  {
    TagOfName(t);
  }

  /** The name of an inherited member is none of the table's own keys, so
      its lookup gives the member itself. */
  lemma InheritedLookup(emotion: string, now: int)
    ensures emotion in InheritedNames ==> TagOf(emotion).None?
    ensures emotion in InheritedNames ==> Recommend(emotion, now) == Inherited(emotion)
  {
    if emotion in InheritedNames {
      assert emotion != "calm" && emotion != "happy" && emotion != "curious"
        && emotion != "contemplative" && emotion != "inspired";
    }
  }
}

=== FILE: records.dfy ===
/** The client's record shapes and the serialisation layer it borrows from
    libraries: UTF-8 conversion (`ethers.toUtf8Bytes` / `toUtf8String`) and
    `JSON.stringify` / `JSON.parse`. Those library functions are not
    reimplemented: a `Formats` value carries them as functions, and the
    predicates `Utf8Law`, `IdsLaw`, `DocLaw` and `Latin1Law` state the facts
    about them that each lemma depends on. */
module Records {
  import opened Wrappers
  import opened Text

  /** `MoodData`: what the user submits, timestamped in milliseconds. */
  datatype Mood = Mood(emotion: string, intensity: int, timestamp: int)

  /** `Exhibit`: an entry of the displayed list, and also the shape of a
      recommendation seed. `encryptedData` is the stored `data` field. */
  datatype Exhibit = Exhibit(
    id: string,
    name: string,
    description: string,
    emotionMatch: string,
    location: string,
    encryptedData: string,
    timestamp: int)

  /** The JSON object stored under `"exhibit_<id>"`. */
  datatype ExhibitDoc = ExhibitDoc(
    name: string,
    description: string,
    emotionMatch: string,
    location: string,
    data: string,
    timestamp: int)

  /** The library functions the client calls. A parse gives `None` where
      the library throws. */
  datatype Formats = Formats(
    toUtf8: string -> seq<byte>,
    fromUtf8: seq<byte> -> Option<string>,
    stringifyIds: seq<string> -> string,
    parseIds: string -> Option<seq<string>>,
    stringifyDoc: ExhibitDoc -> string,
    parseDoc: string -> Option<ExhibitDoc>,
    stringifyMood: Mood -> string,
    stringifySeed: Exhibit -> string)

  /** Every text field of a seed is within Latin-1. */
  predicate SeedLatin1(e: Exhibit) {
    && IsLatin1(e.id) && IsLatin1(e.name) && IsLatin1(e.description)
    && IsLatin1(e.emotionMatch) && IsLatin1(e.location) && IsLatin1(e.encryptedData)
  }

  /** UTF-8 decoding undoes encoding, and only the empty string encodes
      to no bytes. */
  ghost predicate Utf8Law(f: Formats) {
    && (forall s :: f.fromUtf8(f.toUtf8(s)) == Some(s))
    && (forall s :: s != [] ==> f.toUtf8(s) != [])
  }

  /** `JSON.parse` undoes `JSON.stringify` on id arrays and throws on blank
      text. */
  ghost predicate IdsLaw(f: Formats) {
    && (forall ks :: f.parseIds(f.stringifyIds(ks)) == Some(ks))
    && (forall s :: Blank(s) ==> f.parseIds(s) == None)
  }

  /** The same for stored exhibit documents. */
  ghost predicate DocLaw(f: Formats) {
    && (forall d :: f.parseDoc(f.stringifyDoc(d)) == Some(d))
    && (forall s :: Blank(s) ==> f.parseDoc(s) == None)
  }

  /** `JSON.stringify` of Latin-1 text fields and numbers is Latin-1. */
  ghost predicate Latin1Law(f: Formats) {
    && (forall m: Mood :: IsLatin1(m.emotion) ==> IsLatin1(f.stringifyMood(m)))
    && (forall e :: SeedLatin1(e) ==> IsLatin1(f.stringifySeed(e)))
  }

  /** What the keyed store relies on. */
  ghost predicate IndexLaws(f: Formats) {
    Utf8Law(f) && IdsLaw(f)
  }

  /** A serialised exhibit document is never blank, so never empty. */
  lemma StringifiedDocNonEmpty(f: Formats, d: ExhibitDoc)
    requires Utf8Law(f) && DocLaw(f)
    ensures f.stringifyDoc(d) != []
    ensures f.toUtf8(f.stringifyDoc(d)) != []
  {
    assert f.parseDoc(f.stringifyDoc(d)) == Some(d);
  }
}

=== FILE: reveal.dfy ===
/** Revealing an exhibit's data: the user signs a challenge describing the
    session, after which the stored text is decrypted locally; and the
    detail view's button that toggles between showing and hiding it. */
module Reveal {
  import opened Wrappers
  import opened Text
  import opened Codec

  /** What the challenge message describes. The public key and the
      contract address are hexadecimal strings; the others are integers. */
  datatype Session = Session(
    publicKey: string,
    contractAddress: string,
    chainId: int,
    startTimestamp: int,
    durationDays: int)

  /** The five labels, one per line, in order. */
  const KeyTag := "publickey:"
  const AddressTag := "contractAddresses:"
  const ChainTag := "contractsChainId:"
  const StartTag := "startTimestamp:"
  const DurationTag := "durationDays:"

  /** The message's lines: each label followed by its value. */
  function ChallengeFields(p: Session): seq<string> {
    [ KeyTag + p.publicKey,
      AddressTag + p.contractAddress,
      ChainTag + IntToString(p.chainId),
      StartTag + IntToString(p.startTimestamp),
      DurationTag + IntToString(p.durationDays) ]
  }

  /** The public key and address fit on one line each. */
  predicate OneLine(p: Session) {
    '\n' !in p.publicKey && '\n' !in p.contractAddress
  }

  /** No labelled value of a one-line session spans two lines. */
  lemma FieldsOneLine(p: Session)
    requires OneLine(p)
    ensures forall k :: 0 <= k < |ChallengeFields(p)| ==> '\n' !in ChallengeFields(p)[k]
  {
    var ls := ChallengeFields(p);
    forall k | 0 <= k < |ls| ensures '\n' !in ls[k] {
      if k == 0 { assert ls[0] == KeyTag + p.publicKey; }
      else if k == 1 { assert ls[1] == AddressTag + p.contractAddress; }
    }
  }

  /** The message handed to the wallet for signing: for a one-line session
      it splits back into exactly the five labelled lines, in order. */
  function Challenge(p: Session): (c: string)
    ensures OneLine(p) ==> SplitLines(c) == ChallengeFields(p)
  {
    var ls := ChallengeFields(p);
    if OneLine(p) then
      FieldsOneLine(p);
      SplitJoinLines(ls);
      JoinLines(ls)
    else JoinLines(ls)
  }

  /** The value after `tag` on a line, if the line starts with it. */
  function Field(line: string, tag: string): (r: Option<string>)
    ensures r.Some? <==> StartsWith(line, tag)
    ensures r.Some? ==> line == tag + r.value
  {
    if StartsWith(line, tag) then
      assert line == line[..|tag|] + line[|tag|..];
      Some(line[|tag|..])
    else None
  }

  /** An integer-valued field. */
  function NumberField(line: string, tag: string): Option<int> {
    match Field(line, tag)
    case None => None
    case Some(v) => ParseInt(v)
  }

  /** Reads the session back from a challenge message. */
  function ParseChallenge(text: string): Option<Session> {
    var lines := SplitLines(text);
    if |lines| != 5 then None
    else
      var key := Field(lines[0], KeyTag);
      var address := Field(lines[1], AddressTag);
      var chain := NumberField(lines[2], ChainTag);
      var start := NumberField(lines[3], StartTag);
      var duration := NumberField(lines[4], DurationTag);
      if key.Some? && address.Some? && chain.Some? && start.Some? && duration.Some? then
        Some(Session(key.value, address.value, chain.value, start.value, duration.value))
      else None
  }

  /** A labelled value is read back from its own line. */
  lemma FieldOf(tag: string, value: string)
    ensures Field(tag + value, tag) == Some(value)
  {
    assert (tag + value)[..|tag|] == tag;
    assert (tag + value)[|tag|..] == value;
  }

  lemma NumberFieldOf(tag: string, n: int)
    ensures NumberField(tag + IntToString(n), tag) == Some(n)
  {
    FieldOf(tag, IntToString(n));
    ParseIntToString(n);
  }

  /** Every session's challenge reads back as that session: the signed
      message determines all five values. */
  lemma ParseChallengeRoundTrip(p: Session)
    requires OneLine(p)
    ensures ParseChallenge(Challenge(p)) == Some(p)
  {
    FieldOf(KeyTag, p.publicKey);
    FieldOf(AddressTag, p.contractAddress);
    NumberFieldOf(ChainTag, p.chainId);
    NumberFieldOf(StartTag, p.startTimestamp);
    NumberFieldOf(DurationTag, p.durationDays);
  }

  /** Different sessions give different challenges. */
  lemma ChallengeInjective(p: Session, q: Session)
    requires OneLine(p) && OneLine(q)
    ensures Challenge(p) == Challenge(q) <==> p == q
  {
    if Challenge(p) == Challenge(q) {
      ParseChallengeRoundTrip(p);
      ParseChallengeRoundTrip(q);
    }
  }

  // ---------------------------------------------------------------------
  // Decrypting with a signature

  /** What the wallet does with a signing request. Any error it raises,
      including the user's refusal, counts as declining. */
  datatype Signing = Signed | Declined

  /** A reveal attempt: the message the wallet was asked to sign, if any,
      and the text handed back (`null` as `None`). */
  datatype Attempt = Attempt(challenge: Option<string>, text: Option<string>)

  /** `decryptWithSignature`: without a wallet nothing is asked and nothing
      returned; otherwise the challenge is always put to the wallet, and
      the stored text is decrypted only once it is signed. A decryption
      that throws returns nothing. */
  function DecryptWithSignature(connected: bool, p: Session, signing: Signing, encrypted: string): (a: Attempt)
    ensures a.challenge.Some? <==> connected
    ensures a.challenge.Some? ==> a.challenge.value == Challenge(p)
    ensures a.text.Some? ==> connected && signing == Signed && a.text == Decrypt(encrypted)
    ensures connected && signing == Signed ==> a.text == Decrypt(encrypted)
  {
    if !connected then Attempt(None, None)
    else match signing
      case Declined => Attempt(Some(Challenge(p)), None)
      case Signed => Attempt(Some(Challenge(p)), Decrypt(encrypted))
  }

  /** Data encrypted by the client comes back unchanged from a signed
      reveal. */
  lemma SignedRevealRecovers(p: Session, data: string)
    requires IsLatin1(data)
    ensures Encrypt(data).Some?
    ensures DecryptWithSignature(true, p, Signed, Encrypt(data).value) == Attempt(Some(Challenge(p)), Some(data))
  {
    DecryptEncrypt(data);
  }

  // ---------------------------------------------------------------------
  // The show / hide button

  /** JavaScript truthiness of a `string | null`: `null` and `""` are
      falsy. */
  predicate Truthy(s: Option<string>) {
    s.Some? && s.value != ""
  }

  /** The detail view's content after a click, and the message the wallet
      was asked to sign, if any. */
  datatype Toggle = Toggle(content: Option<string>, challenge: Option<string>)

  /** `handleDecrypt`: shown content is hidden without asking the wallet;
      otherwise a reveal is attempted and its result shown only if it is
      truthy. */
  function HandleDecrypt(content: Option<string>, connected: bool, p: Session, signing: Signing, encrypted: string): (t: Toggle)
    ensures Truthy(content) ==> t == Toggle(None, None)
    ensures !Truthy(content) ==> t.challenge == DecryptWithSignature(connected, p, signing, encrypted).challenge
    ensures !Truthy(content) ==> t.content == content || Truthy(t.content)
    ensures !Truthy(content) && connected && signing == Signed && Truthy(Decrypt(encrypted)) ==>
      t.content == Decrypt(encrypted)
    ensures !Truthy(content) && !Truthy(DecryptWithSignature(connected, p, signing, encrypted).text) ==>
      t.content == content
  {
    if Truthy(content) then Toggle(None, None)
    else
      var a := DecryptWithSignature(connected, p, signing, encrypted);
      if Truthy(a.text) then Toggle(a.text, a.challenge) else Toggle(content, a.challenge)
  }

  /** A click that reveals something is undone by the next click, which
      asks the wallet nothing. */
  lemma ShowThenHide(content: Option<string>, connected: bool, p: Session, signing: Signing, encrypted: string,
                     connected': bool, p': Session, signing': Signing)
    requires !Truthy(content)
    requires HandleDecrypt(content, connected, p, signing, encrypted).content != content
    ensures var first := HandleDecrypt(content, connected, p, signing, encrypted);
      HandleDecrypt(first.content, connected', p', signing', encrypted) == Toggle(None, None)
  {
  }

  /** With nothing shown, a signed reveal of client-encrypted non-empty
      data shows exactly that data, after asking the wallet to sign the
      session's challenge. */
  lemma RevealShowsData(content: Option<string>, p: Session, data: string)
    requires !Truthy(content)
    requires IsLatin1(data) && data != ""
    ensures Encrypt(data).Some?
    ensures HandleDecrypt(content, true, p, Signed, Encrypt(data).value) == Toggle(Some(data), Some(Challenge(p)))
  {
    SignedRevealRecovers(p, data);
  }

  /** Without a wallet, or when the signature is declined, nothing new is
      shown; only a connected attempt reaches the wallet. */
  lemma RevealRefused(content: Option<string>, connected: bool, p: Session, signing: Signing, encrypted: string)
    requires !Truthy(content)
    requires !connected || signing == Declined
    ensures var t := HandleDecrypt(content, connected, p, signing, encrypted);
      t.content == content && (t.challenge.Some? <==> connected)
  {
  }

  /** Revealing data that encrypts the empty string shows nothing: the
      decrypted `""` is falsy. */
  lemma EmptyRevealShowsNothing(content: Option<string>, p: Session)
    requires !Truthy(content)
    ensures HandleDecrypt(content, true, p, Signed, Encrypt("").value).content == content
  {
    SignedRevealRecovers(p, "");
  }
}

=== FILE: store.dfy ===
/** The keyed collection store: a named, ordered list of records kept in a
    flat key/value backend that cannot enumerate its keys. Collection `c`
    keeps its member ids, as a JSON array, under `"<c>_keys"`, and each
    member under `"<c>_<id>"`. The backend is an immutable map; a missing
    key reads as no bytes, as `getData` returns empty bytes for it. */
module KeyedStore {
  import opened Wrappers
  import opened Text
  import opened Records

  type Store = map<string, seq<byte>>

  /** The two collections the client keeps. */
  datatype Collection = Moods | Exhibits {
    function Name(): string {
      match this
      case Moods => "mood"
      case Exhibits => "exhibit"
    }
  }

  /** One `setData` call. */
  datatype Write = Write(key: string, value: seq<byte>)

  /** `getData(key)`. */
  function Get(s: Store, key: string): seq<byte> {
    if key in s then s[key] else []
  }

  /** The backend after a series of `setData` calls, in order. */
  function Apply(s: Store, ws: seq<Write>): Store
    decreases |ws|
  {
    if ws == [] then s else Apply(s[ws[0].key := ws[0].value], ws[1..])
  }

  function IndexKey(c: Collection): string {
    c.Name() + "_keys"
  }

  function RecordKey(c: Collection, id: string): string {
    c.Name() + "_" + id
  }

  // ---------------------------------------------------------------------
  // Keys

  lemma PrefixCancel(p: string, x: string, y: string)
    ensures p + x == p + y <==> x == y
  {
    if p + x == p + y {
      assert x == (p + x)[|p|..];
      assert y == (p + y)[|p|..];
    }
  }

  /** A record key coincides with an index key only for the id `"keys"` of
      the same collection. */
  lemma RecordKeyVsIndexKey(c: Collection, id: string, c': Collection)
    ensures RecordKey(c, id) == IndexKey(c') <==> c == c' && id == "keys"
  {
    if c != c' {
      assert RecordKey(c, id)[0] == c.Name()[0];
      assert IndexKey(c')[0] == c'.Name()[0];
    } else {
      PrefixCancel(c.Name() + "_", id, "keys");
      assert IndexKey(c) == c.Name() + "_" + "keys";
    }
  }

  lemma RecordKeysInjective(c: Collection, id: string, c': Collection, id': string)
    ensures RecordKey(c, id) == RecordKey(c', id') <==> c == c' && id == id'
  {
    if c != c' {
      assert RecordKey(c, id)[0] == c.Name()[0];
      assert RecordKey(c', id')[0] == c'.Name()[0];
    } else {
      PrefixCancel(c.Name() + "_", id, id');
    }
  }

  lemma IndexKeysDistinct(c: Collection, c': Collection)
    ensures IndexKey(c) == IndexKey(c') <==> c == c'
  {
    if c != c' {
      assert IndexKey(c)[0] == c.Name()[0];
      assert IndexKey(c')[0] == c'.Name()[0];
    }
  }

  // ---------------------------------------------------------------------
  // Reading the index

  /** Index bytes as the listing code reads them: absent, undecodable,
      blank (`trim() === ''`) or unparseable text all give no ids. */
  function ListedIds(f: Formats, bytes: seq<byte>): seq<string> {
    if |bytes| == 0 then []
    else match f.fromUtf8(bytes)
      case None => []
      case Some(text) => if Trim(text) == [] then [] else f.parseIds(text).GetOr([])
  }

  /** Index bytes as the append code reads them before pushing a new id:
      the same, without the blank-text test. */
  function IdsBeforePush(f: Formats, bytes: seq<byte>): seq<string> {
    if |bytes| == 0 then []
    else match f.fromUtf8(bytes)
      case None => []
      case Some(text) => f.parseIds(text).GetOr([])
  }

  /** The ids the listing shows for collection `c`. */
  function ListIds(f: Formats, s: Store, c: Collection): seq<string> {
    ListedIds(f, Get(s, IndexKey(c)))
  }

  /** The ids an append to collection `c` starts from. */
  function ReadIndex(f: Formats, s: Store, c: Collection): seq<string> {
    IdsBeforePush(f, Get(s, IndexKey(c)))
  }

  /** Listing never fails: it yields the parsed ids when the index bytes are
      present, decode, are not blank and parse, and no ids otherwise. */
  lemma ListIdsCases(f: Formats, s: Store, c: Collection)
    ensures var bytes := Get(s, IndexKey(c));
      ListIds(f, s, c) ==
        if bytes != [] && f.fromUtf8(bytes).Some? && !Blank(f.fromUtf8(bytes).value)
           && f.parseIds(f.fromUtf8(bytes).value).Some?
        then f.parseIds(f.fromUtf8(bytes).value).value
        else []
  {
    var bytes := Get(s, IndexKey(c));
    if bytes != [] && f.fromUtf8(bytes).Some? {
      TrimEmptyIffBlank(f.fromUtf8(bytes).value);
    }
  }

  /** Since `JSON.parse` throws on blank text anyway, both readings agree. */
  lemma ListingAgreesWithAppendRead(f: Formats, s: Store, c: Collection)
    requires IndexLaws(f)
    ensures ListIds(f, s, c) == ReadIndex(f, s, c)
  {
    var bytes := Get(s, IndexKey(c));
    if bytes != [] && f.fromUtf8(bytes).Some? {
      var text := f.fromUtf8(bytes).value;
      TrimEmptyIffBlank(text);
      if Blank(text) {
        assert f.parseIds(text) == None;
      }
    }
  }

  // ---------------------------------------------------------------------
  // Appending

  /** Appending `id` with record bytes `value`: the record is written first,
      then the index is re-read (after that write) and written back with
      `id` pushed at the end. */
  function AppendWrites(f: Formats, s: Store, c: Collection, id: string, value: seq<byte>): (ws: seq<Write>)
    ensures |ws| == 2
    ensures ws[0] == Write(RecordKey(c, id), value)
    ensures ws[1].key == IndexKey(c)
  {
    var afterRecord := s[RecordKey(c, id) := value];
    [ Write(RecordKey(c, id), value),
      Write(IndexKey(c), f.toUtf8(f.stringifyIds(ReadIndex(f, afterRecord, c) + [id]))) ]
  }

  lemma ApplyOne(s: Store, w: Write)
    ensures Apply(s, [w]) == s[w.key := w.value]
  {
    assert [w][1..] == [];
    assert Apply(s, [w]) == Apply(s[w.key := w.value], []);
  }

  lemma ApplyTwo(s: Store, w0: Write, w1: Write)
    ensures Apply(s, [w0, w1]) == s[w0.key := w0.value][w1.key := w1.value]
  {
    assert [w0, w1][1..] == [w1];
    assert Apply(s, [w0, w1]) == Apply(s[w0.key := w0.value], [w1]);
    ApplyOne(s[w0.key := w0.value], w1);
  }

  lemma ApplyConcat(s: Store, a: seq<Write>, b: seq<Write>)
    ensures Apply(s, a + b) == Apply(Apply(s, a), b)
    decreases |a|
  {
    if a == [] {
      assert a + b == b;
    } else {
      assert (a + b)[0] == a[0];
      assert (a + b)[1..] == a[1..] + b;
      ApplyConcat(s[a[0].key := a[0].value], a[1..], b);
    }
  }

  /** The bytes written for an index decode back to the ids written. */
  lemma IndexBytesRoundTrip(f: Formats, s: Store, c: Collection, ids: seq<string>)
    requires IndexLaws(f)
    ensures var t := s[IndexKey(c) := f.toUtf8(f.stringifyIds(ids))];
      ReadIndex(f, t, c) == ids && ListIds(f, t, c) == ids
    ensures f.toUtf8(f.stringifyIds(ids)) != []
  {
    var text := f.stringifyIds(ids);
    assert f.parseIds(text) == Some(ids);
    assert text != [] by {
      if text == [] { assert Blank(text); }
    }
    var t := s[IndexKey(c) := f.toUtf8(text)];
    assert f.fromUtf8(f.toUtf8(text)) == Some(text);
    ListingAgreesWithAppendRead(f, t, c);
  }

  /** The effect of one append: the record key holds the record, the index
      is the old index (or nothing, if it did not parse) with `id` at the
      end, and no other key changes. */
  lemma AppendEffect(f: Formats, s: Store, c: Collection, id: string, value: seq<byte>)
    requires IndexLaws(f)
    requires id != "keys"
    ensures var t := Apply(s, AppendWrites(f, s, c, id, value));
      && Get(t, RecordKey(c, id)) == value
      && ReadIndex(f, t, c) == ReadIndex(f, s, c) + [id]
      && ListIds(f, t, c) == ListIds(f, s, c) + [id]
      && (forall k :: k != RecordKey(c, id) && k != IndexKey(c) ==> Get(t, k) == Get(s, k))
  {
    var ws := AppendWrites(f, s, c, id, value);
    var s1 := s[RecordKey(c, id) := value];
    ApplyTwo(s, ws[0], ws[1]);
    RecordKeyVsIndexKey(c, id, c);
    assert Get(s1, IndexKey(c)) == Get(s, IndexKey(c));
    assert ReadIndex(f, s1, c) == ReadIndex(f, s, c);
    IndexBytesRoundTrip(f, s1, c, ReadIndex(f, s, c) + [id]);
    ListingAgreesWithAppendRead(f, s, c);
  }

  // ---------------------------------------------------------------------
  // A series of appends

  /** One record to append. */
  datatype Entry = Entry(c: Collection, id: string, value: seq<byte>)

  /** The `setData` calls of appending `es` one after another, each append
      reading the index as the previous ones left it. Every record write
      comes immediately before the write of its own collection's index. */
  function AppendAll(f: Formats, s: Store, es: seq<Entry>): (ws: seq<Write>)
    ensures |ws| == 2 * |es|
    ensures forall i :: 0 <= i < |es| ==>
      && ws[2 * i] == Write(RecordKey(es[i].c, es[i].id), es[i].value)
      && ws[2 * i + 1].key == IndexKey(es[i].c)
    decreases |es|
  {
    if es == [] then []
    else
      var first := AppendWrites(f, s, es[0].c, es[0].id, es[0].value);
      first + AppendAll(f, Apply(s, first), es[1..])
  }

  /** The ids of the entries of collection `c`, in order. */
  function IdsIn(es: seq<Entry>, c: Collection): seq<string>
    decreases |es|
  {
    if es == [] then []
    else (if es[0].c == c then [es[0].id] else []) + IdsIn(es[1..], c)
  }

  predicate NoKeysId(es: seq<Entry>) {
    forall i :: 0 <= i < |es| ==> es[i].id != "keys"
  }

  lemma AppendIndexGrows(f: Formats, s: Store, c: Collection, id: string, value: seq<byte>)
    requires IndexLaws(f)
    requires id != "keys"
    ensures ReadIndex(f, Apply(s, AppendWrites(f, s, c, id, value)), c) == ReadIndex(f, s, c) + [id]
  {
    AppendEffect(f, s, c, id, value);
  }

  /** Index reads depend on the index bytes only. */
  lemma SameIndexBytes(f: Formats, s: Store, t: Store, c: Collection)
    requires Get(s, IndexKey(c)) == Get(t, IndexKey(c))
    ensures ReadIndex(f, s, c) == ReadIndex(f, t, c)
    ensures ListIds(f, s, c) == ListIds(f, t, c)
  {
  }

  /** An append to one collection leaves the other collection's index as
      it was. */
  lemma AppendLeavesOtherIndex(f: Formats, s: Store, c: Collection, id: string, value: seq<byte>, c': Collection)
    requires c != c'
    ensures Get(Apply(s, AppendWrites(f, s, c, id, value)), IndexKey(c')) == Get(s, IndexKey(c'))
  {
    var ws := AppendWrites(f, s, c, id, value);
    ApplyTwo(s, ws[0], ws[1]);
    IndexKeysDistinct(c, c');
    RecordKeyVsIndexKey(c, id, c');
  }

  /** A series of appends is its first append followed by the rest. */
  lemma AppendAllSplit(f: Formats, s: Store, es: seq<Entry>)
    requires es != []
    ensures var s1 := Apply(s, AppendWrites(f, s, es[0].c, es[0].id, es[0].value));
      Apply(s, AppendAll(f, s, es)) == Apply(s1, AppendAll(f, s1, es[1..]))
  {
    var first := AppendWrites(f, s, es[0].c, es[0].id, es[0].value);
    var s1 := Apply(s, first);
    assert AppendAll(f, s, es) == first + AppendAll(f, s1, es[1..]);
    ApplyConcat(s, first, AppendAll(f, s1, es[1..]));
  }

  /** The first append of a series contributes its id to its own index. */
  lemma AppendIndexStep(f: Formats, s: Store, es: seq<Entry>, c: Collection)
    requires IndexLaws(f)
    requires es != [] && es[0].id != "keys"
    ensures var s1 := Apply(s, AppendWrites(f, s, es[0].c, es[0].id, es[0].value));
      ReadIndex(f, s1, c) + IdsIn(es[1..], c) == ReadIndex(f, s, c) + IdsIn(es, c)
  {
    if es[0].c == c {
      AppendIndexOwnStep(f, s, es);
    } else {
      AppendIndexOtherStep(f, s, es, c);
    }
  }

  lemma AppendIndexOwnStep(f: Formats, s: Store, es: seq<Entry>)
    requires IndexLaws(f)
    requires es != [] && es[0].id != "keys"
    ensures var e := es[0];
      var s1 := Apply(s, AppendWrites(f, s, e.c, e.id, e.value));
      ReadIndex(f, s1, e.c) + IdsIn(es[1..], e.c) == ReadIndex(f, s, e.c) + IdsIn(es, e.c)
  {
    var e := es[0];
    var before := ReadIndex(f, s, e.c);
    var tail := IdsIn(es[1..], e.c);
    AppendIndexGrows(f, s, e.c, e.id, e.value);
    assert IdsIn(es, e.c) == [e.id] + tail;
    assert (before + [e.id]) + tail == before + ([e.id] + tail);
  }

  lemma AppendIndexOtherStep(f: Formats, s: Store, es: seq<Entry>, c: Collection)
    requires es != [] && es[0].c != c
    ensures var e := es[0];
      var s1 := Apply(s, AppendWrites(f, s, e.c, e.id, e.value));
      ReadIndex(f, s1, c) + IdsIn(es[1..], c) == ReadIndex(f, s, c) + IdsIn(es, c)
  {
    var e := es[0];
    var s1 := Apply(s, AppendWrites(f, s, e.c, e.id, e.value));
    AppendLeavesOtherIndex(f, s, e.c, e.id, e.value, c);
    SameIndexBytes(f, s, s1, c);
    assert IdsIn(es, c) == IdsIn(es[1..], c);
  }

  /** After a series of appends each collection's index is its old index
      followed by the ids appended to it, in order. */
  lemma {:induction false} AppendAllIndex(f: Formats, s: Store, es: seq<Entry>, c: Collection)
    requires IndexLaws(f)
    requires NoKeysId(es)
    ensures ReadIndex(f, Apply(s, AppendAll(f, s, es)), c) == ReadIndex(f, s, c) + IdsIn(es, c)
    decreases |es|
  {
    if es != [] {
      var s1 := Apply(s, AppendWrites(f, s, es[0].c, es[0].id, es[0].value));
      AppendAllSplit(f, s, es);
      AppendAllIndex(f, s1, es[1..], c);
      AppendIndexStep(f, s, es, c);
    }
  }

  /** A key is written by the appends of `es`. */
  predicate Touched(es: seq<Entry>, k: string) {
    exists i :: 0 <= i < |es| && (k == RecordKey(es[i].c, es[i].id) || k == IndexKey(es[i].c))
  }

  /** Appends change only their own record keys and index keys. */
  lemma {:induction false} AppendAllFrame(f: Formats, s: Store, es: seq<Entry>, k: string)
    requires !Touched(es, k)
    ensures Get(Apply(s, AppendAll(f, s, es)), k) == Get(s, k)
    decreases |es|
  {
    if es != [] {
      var e := es[0];
      var first := AppendWrites(f, s, e.c, e.id, e.value);
      var s1 := Apply(s, first);
      ApplyConcat(s, first, AppendAll(f, s1, es[1..]));
      ApplyTwo(s, first[0], first[1]);
      forall j | 0 <= j < |es[1..]|
        ensures k != RecordKey(es[1..][j].c, es[1..][j].id) && k != IndexKey(es[1..][j].c)
      {
        assert es[1..][j] == es[j + 1];
      }
      assert k != RecordKey(e.c, e.id) && k != IndexKey(e.c) by {
        assert es[0] == e;
      }
      AppendAllFrame(f, s1, es[1..], k);
    }
  }

  /** No two entries share a record key. */
  predicate DistinctRecords(es: seq<Entry>) {
    forall i, j :: 0 <= i < j < |es| ==> !(es[i].c == es[j].c && es[i].id == es[j].id)
  }

  /** Dropping the first entry keeps ids other than `"keys"` and distinct
      record keys. */
  lemma DistinctTail(es: seq<Entry>)
    requires es != []
    requires NoKeysId(es) && DistinctRecords(es)
    ensures NoKeysId(es[1..]) && DistinctRecords(es[1..])
  {
    var rest := es[1..];
    forall j | 0 <= j < |rest| ensures rest[j].id != "keys" { assert rest[j] == es[j + 1]; }
    forall a, b | 0 <= a < b < |rest| ensures !(rest[a].c == rest[b].c && rest[a].id == rest[b].id) {
      assert rest[a] == es[a + 1] && rest[b] == es[b + 1];
    }
  }

  /** The first appended record is written by no later append, as long as
      no later entry has the same collection and id. */
  lemma FirstRecordKept(f: Formats, s: Store, es: seq<Entry>)
    requires es != [] && es[0].id != "keys"
    requires forall j :: 1 <= j < |es| ==> !(es[j].c == es[0].c && es[j].id == es[0].id)
    ensures Get(Apply(s, AppendAll(f, s, es)), RecordKey(es[0].c, es[0].id)) == es[0].value
  {
    var e := es[0];
    var first := AppendWrites(f, s, e.c, e.id, e.value);
    var s1 := Apply(s, first);
    var rest := es[1..];
    var k := RecordKey(e.c, e.id);
    AppendAllSplit(f, s, es);
    ApplyTwo(s, first[0], first[1]);
    RecordKeyVsIndexKey(e.c, e.id, e.c);
    assert Get(s1, k) == e.value;
    assert !Touched(rest, k) by {
      forall j | 0 <= j < |rest|
        ensures k != RecordKey(rest[j].c, rest[j].id) && k != IndexKey(rest[j].c)
      {
        assert rest[j] == es[j + 1];
        assert !(es[j + 1].c == e.c && es[j + 1].id == e.id);
        RecordKeysInjective(e.c, e.id, rest[j].c, rest[j].id);
        RecordKeyVsIndexKey(e.c, e.id, rest[j].c);
      }
    }
    AppendAllFrame(f, s1, rest, k);
  }

  /** With distinct record keys, every appended record is in the store
      afterwards with exactly the bytes it was appended with. */
  lemma {:induction false} AppendAllRecords(f: Formats, s: Store, es: seq<Entry>, i: int)
    requires NoKeysId(es)
    requires DistinctRecords(es)
    requires 0 <= i < |es|
    ensures Get(Apply(s, AppendAll(f, s, es)), RecordKey(es[i].c, es[i].id)) == es[i].value
    decreases |es|
  {
    if i == 0 {
      FirstRecordKept(f, s, es);
    } else {
      var s1 := Apply(s, AppendWrites(f, s, es[0].c, es[0].id, es[0].value));
      var rest := es[1..];
      var e := es[i];
      assert rest[i - 1] == e;
      DistinctTail(es);
      AppendAllRecords(f, s1, rest, i - 1);
      assert Get(Apply(s1, AppendAll(f, s1, rest)), RecordKey(e.c, e.id)) == e.value;
      AppendAllSplit(f, s, es);
    }
  }

  // ---------------------------------------------------------------------
  // The index invariant

  /** Every id the listing shows for `c` has a record: index entries never
      point to a missing record. */
  predicate Indexed(f: Formats, s: Store, c: Collection) {
    forall id :: id in ListIds(f, s, c) ==> Get(s, RecordKey(c, id)) != []
  }

  predicate Consistent(f: Formats, s: Store) {
    Indexed(f, s, Moods) && Indexed(f, s, Exhibits)
  }

  /** Entries this workflow can append: no id `"keys"` and no empty record. */
  predicate Appendable(es: seq<Entry>) {
    forall i :: 0 <= i < |es| ==> es[i].id != "keys" && es[i].value != []
  }

  /** Writing non-empty bytes to a key other than an index keeps every
      collection consistent. */
  lemma RecordWriteKeepsConsistent(f: Formats, s: Store, c: Collection, id: string, value: seq<byte>)
    requires Consistent(f, s)
    requires id != "keys" && value != []
    ensures Consistent(f, s[RecordKey(c, id) := value])
  {
    var t := s[RecordKey(c, id) := value];
    forall c' | c' == Moods || c' == Exhibits ensures Indexed(f, t, c') {
      RecordKeyVsIndexKey(c, id, c');
      assert Get(t, IndexKey(c')) == Get(s, IndexKey(c'));
      assert ListIds(f, t, c') == ListIds(f, s, c');
      forall x | x in ListIds(f, t, c') ensures Get(t, RecordKey(c', x)) != [] {
        assert Get(s, RecordKey(c', x)) != [];
      }
    }
  }

  /** After both writes of an append every collection is consistent. */
  lemma FullAppendKeepsConsistent(f: Formats, s: Store, c: Collection, id: string, value: seq<byte>)
    requires IndexLaws(f)
    requires Consistent(f, s)
    requires id != "keys" && value != []
    ensures Consistent(f, Apply(s, AppendWrites(f, s, c, id, value)))
  {
    var ws := AppendWrites(f, s, c, id, value);
    var s1 := s[RecordKey(c, id) := value];
    var t := Apply(s, ws);
    RecordWriteKeepsConsistent(f, s, c, id, value);
    ApplyTwo(s, ws[0], ws[1]);
    assert t == s1[IndexKey(c) := ws[1].value];
    RecordKeyVsIndexKey(c, id, c);
    assert Get(s1, IndexKey(c)) == Get(s, IndexKey(c));
    IndexBytesRoundTrip(f, s1, c, ReadIndex(f, s, c) + [id]);
    ListingAgreesWithAppendRead(f, s1, c);
    assert ListIds(f, t, c) == ListIds(f, s1, c) + [id];
    assert Indexed(f, t, c) by {
      forall x | x in ListIds(f, t, c) ensures Get(t, RecordKey(c, x)) != [] {
        if x != id {
          assert x in ListIds(f, s1, c);
          assert Get(s1, RecordKey(c, x)) != [];
        }
      }
    }
    var c' := if c == Moods then Exhibits else Moods;
    assert Indexed(f, t, c') by {
      IndexKeysDistinct(c, c');
      assert Get(t, IndexKey(c')) == Get(s1, IndexKey(c'));
      assert ListIds(f, t, c') == ListIds(f, s1, c');
      forall x | x in ListIds(f, t, c') ensures Get(t, RecordKey(c', x)) != [] {
        RecordKeyVsIndexKey(c', x, c);
        assert Get(s1, RecordKey(c', x)) != [];
      }
    }
  }

  /** Both writes of an append, applied or not, keep every collection
      consistent: a failure between them leaves at worst an unlisted
      record, never a listed id without its record. */
  lemma AppendKeepsConsistent(f: Formats, s: Store, c: Collection, id: string, value: seq<byte>, k: nat)
    requires IndexLaws(f)
    requires Consistent(f, s)
    requires id != "keys" && value != []
    requires k <= 2
    ensures Consistent(f, Apply(s, AppendWrites(f, s, c, id, value)[..k]))
  {
    var ws := AppendWrites(f, s, c, id, value);
    if k == 0 {
      assert ws[..0] == [];
    } else if k == 1 {
      assert ws[..1] == [ws[0]];
      ApplyOne(s, ws[0]);
      RecordWriteKeepsConsistent(f, s, c, id, value);
    } else {
      assert ws[..2] == ws;
      FullAppendKeepsConsistent(f, s, c, id, value);
    }
  }

  lemma AppendableTail(es: seq<Entry>)
    requires es != [] && Appendable(es)
    ensures Appendable(es[1..])
  {
    var rest := es[1..];
    forall j | 0 <= j < |rest| ensures rest[j].id != "keys" && rest[j].value != [] {
      assert rest[j] == es[j + 1];
    }
  }

  /** More than two writes of a series are both writes of its first append
      followed by writes of the rest. */
  lemma AppendAllPrefixSplit(f: Formats, s: Store, es: seq<Entry>, k: nat)
    requires es != [] && 2 <= k <= 2 * |es|
    ensures var s1 := Apply(s, AppendWrites(f, s, es[0].c, es[0].id, es[0].value));
      Apply(s, AppendAll(f, s, es)[..k]) == Apply(s1, AppendAll(f, s1, es[1..])[..k - 2])
  {
    var first := AppendWrites(f, s, es[0].c, es[0].id, es[0].value);
    var s1 := Apply(s, first);
    var later := AppendAll(f, s1, es[1..])[..k - 2];
    assert AppendAll(f, s, es) == first + AppendAll(f, s1, es[1..]);
    assert AppendAll(f, s, es)[..k] == first + later;
    ApplyConcat(s, first, later);
  }

  /** Every prefix of a series of appends (the writes a run performs before
      a failing `setData` call) leaves every collection consistent. */
  lemma {:induction false} AppendAllKeepsConsistent(f: Formats, s: Store, es: seq<Entry>, k: nat)
    requires IndexLaws(f)
    requires Consistent(f, s)
    requires Appendable(es)
    requires k <= 2 * |es|
    ensures Consistent(f, Apply(s, AppendAll(f, s, es)[..k]))
    decreases |es|
  {
    if es == [] {
      assert AppendAll(f, s, es)[..k] == [];
    } else {
      var e := es[0];
      var first := AppendWrites(f, s, e.c, e.id, e.value);
      if k <= 2 {
        assert AppendAll(f, s, es)[..k] == first[..k];
        AppendKeepsConsistent(f, s, e.c, e.id, e.value, k);
      } else {
        var s1 := Apply(s, first);
        AppendKeepsConsistent(f, s, e.c, e.id, e.value, 2);
        assert first[..2] == first;
        AppendableTail(es);
        AppendAllKeepsConsistent(f, s1, es[1..], k - 2);
        AppendAllPrefixSplit(f, s, es, k);
      }
    }
  }
}

=== FILE: submission.dfy ===
/** `submitMood`: the user's mood is encrypted and appended to the mood
    collection, then every recommended seed is encrypted into a fresh
    exhibit document and appended to the exhibit collection, and on success
    the displayed list is reloaded. Any exception ends the workflow where it
    is raised; the writes already made stay. */
module Submission {
  import opened Wrappers
  import opened Text
  import opened Codec
  import opened Records
  import opened KeyedStore
  import opened Listing
  import opened Recommend

  /** The values the workflow takes from `Date.now()` and `Math.random()`:
      the mood's timestamp; the time and random suffix of the mood id; the
      lookup time of the table; and, for the `i`-th seed, the time and random
      suffix of its exhibit id and the timestamp of its document. */
  datatype Draws = Draws(
    moodTime: int,
    moodStamp: int,
    moodSuffix: string,
    tableTime: int,
    exhibitStamp: nat -> int,
    exhibitSuffix: nat -> string,
    exhibitTime: nat -> int)

  /** Why a connected submission stopped. */
  datatype Cause =
    | Unencodable   // an encryption met a character beyond Latin-1
    | NoSigner      // no contract handle with a signer
    | NotIterable   // the lookup gave an inherited member, not a list
    | WriteFailed   // a `setData` call threw

  datatype Status = NotConnected | Failed(cause: Cause) | Submitted

  /** The entries to append, in order, and the exception that cuts the list
      short, if any. */
  datatype Plan = Plan(entries: seq<Entry>, stop: Option<Cause>)

  /** The `setData` calls made, the store they leave, and the displayed
      list afterwards. */
  datatype Outcome = Outcome(status: Status, writes: seq<Write>, data: Store, view: seq<Exhibit>)

  /** A fresh id: `` `${prefix}${now}-${suffix}` `` for the tag `mood-` or
      `exhibit-`. It carries its tag and is never the index's `"keys"`. */
  function DrawnId(prefix: string, stamp: int, suffix: string): (id: string)
    requires prefix == "mood-" || prefix == "exhibit-"
    ensures StartsWith(id, prefix) && id != "keys"
  {
    prefix + IntToString(stamp) + "-" + suffix
  }

  /** `` `mood-${now}-${suffix}` `` */
  function MoodId(stamp: int, suffix: string): string {
    DrawnId("mood-", stamp, suffix)
  }

  /** `` `exhibit-${now}-${suffix}` `` */
  function ExhibitId(stamp: int, suffix: string): string {
    DrawnId("exhibit-", stamp, suffix)
  }

  /** The id the `i`-th seed's exhibit gets. */
  function NewExhibitId(d: Draws, i: nat): string {
    ExhibitId(d.exhibitStamp(i), d.exhibitSuffix(i))
  }

  /** The stored document for a seed: the seed's name, description and
      location, the submitted emotion, the encrypted JSON of the whole seed
      as `data`, and a fresh timestamp. */
  function SeedDoc(emotion: string, seed: Exhibit, data: string, time: int): ExhibitDoc {
    ExhibitDoc(seed.name, seed.description, emotion, seed.location, data, time)
  }

  /** The entry for the `i`-th seed, whose JSON encrypts to `data`. */
  function SeedEntry(f: Formats, emotion: string, seed: Exhibit, data: string, d: Draws, i: nat): Entry {
    Entry(Exhibits, NewExhibitId(d, i), f.toUtf8(f.stringifyDoc(SeedDoc(emotion, seed, data, d.exhibitTime(i)))))
  }

  /** The length of the longest prefix of `seeds` whose JSON encrypts: the
      loop throws at the first seed beyond it. */
  function EncodablePrefix(f: Formats, seeds: seq<Exhibit>): (n: nat)
    ensures n <= |seeds|
    ensures forall i :: 0 <= i < n ==> IsLatin1(f.stringifySeed(seeds[i]))
    ensures n < |seeds| ==> !IsLatin1(f.stringifySeed(seeds[n]))
    decreases |seeds|
  {
    if seeds == [] || !IsLatin1(f.stringifySeed(seeds[0])) then 0
    else
      var n := EncodablePrefix(f, seeds[1..]);
      assert forall i :: 0 < i <= n ==> seeds[i] == seeds[1..][i - 1];
      1 + n
  }

  /** The seeds, appended one by one until a seed's JSON does not encrypt:
      the entries are exactly those of the longest prefix of encodable
      seeds, the `i`-th under the `i`-th drawn id, and the plan stops there
      if that prefix is not all of them. */
  function SeedEntries(f: Formats, emotion: string, seeds: seq<Exhibit>, d: Draws): (p: Plan)
    ensures |p.entries| <= |seeds|
    ensures p.stop.None? <==> |p.entries| == |seeds|
    ensures p.stop.Some? ==>
      p.stop.value == Unencodable && !IsLatin1(f.stringifySeed(seeds[|p.entries|]))
    ensures forall i :: 0 <= i < |p.entries| ==>
      && IsLatin1(f.stringifySeed(seeds[i]))
      && p.entries[i] == SeedEntry(f, emotion, seeds[i], Encrypt(f.stringifySeed(seeds[i])).value, d, i)
  {
    var n := EncodablePrefix(f, seeds);
    var es := seq(n, i requires 0 <= i < n =>
      SeedEntry(f, emotion, seeds[i], Encrypt(f.stringifySeed(seeds[i])).value, d, i));
    Plan(es, if n < |seeds| then Some(Unencodable) else None)
  }

  /** Everything a connected submission with a signer tries to append,
      given the table lookup `look`: the encrypted mood, then the lookup's
      seeds. An inherited member stops the plan right after the mood. */
  function SubmissionPlan(f: Formats, mood: Mood, encrypted: string, look: Lookup, d: Draws): (p: Plan)
    ensures p.entries != [] && p.entries[0] == Entry(Moods, MoodId(d.moodStamp, d.moodSuffix), f.toUtf8(encrypted))
    ensures p.stop.Some? ==> p.stop.value == (if look.Inherited? then NotIterable else Unencodable)
    ensures look.Inherited? ==> p.stop == Some(NotIterable)
  {
    var first := Entry(Moods, MoodId(d.moodStamp, d.moodSuffix), f.toUtf8(encrypted));
    match look
    case Inherited(_) => Plan([first], Some(NotIterable))
    case Seeds(seeds) =>
      var rest := SeedEntries(f, mood.emotion, seeds, d);
      Plan([first] + rest.entries, rest.stop)
  }

  /** How many of `n` planned writes happen when the `failAt`-th throws. */
  function WritesDone(n: nat, failAt: Option<nat>): (k: nat)
    ensures k <= n
    ensures k < n <==> failAt.Some? && failAt.value < n
  {
    if failAt.Some? && failAt.value < n then failAt.value else n
  }

  /** Carrying out a plan: its writes are made in order until the
      `failAt`-th `setData` throws or the plan runs out. A throw, or a plan
      cut short, ends in failure with the store as the writes made left
      it; otherwise the submission succeeds and the list is reloaded. */
  function RunPlan(f: Formats, b: Backend, p: Plan, failAt: Option<nat>, view: seq<Exhibit>): (o: Outcome)
    requires p.stop != Some(WriteFailed)
    ensures o.data == Apply(b.data, o.writes)
    ensures var all := AppendAll(f, b.data, p.entries);
      |o.writes| <= |all| && o.writes == all[..|o.writes|]
    ensures o.status == Failed(WriteFailed) <==> failAt.Some? && failAt.value < 2 * |p.entries|
    ensures o.status == Failed(WriteFailed) ==> |o.writes| == failAt.value
    ensures o.status == Submitted <==> o.status != Failed(WriteFailed) && p.stop.None?
    ensures o.status.Failed? && o.status != Failed(WriteFailed) ==>
      p.stop.Some? && o.status == Failed(p.stop.value) && |o.writes| == 2 * |p.entries|
    ensures o.status != Submitted ==> o.view == view
    ensures o.status == Submitted ==>
      && o.writes == AppendAll(f, b.data, p.entries)
      && o.view == LoadExhibits(f, Some(Backend(o.data, b.available)), view)
  {
    var all := AppendAll(f, b.data, p.entries);
    var n := WritesDone(|all|, failAt);
    var ws := all[..n];
    var s := Apply(b.data, ws);
    if n < |all| then Outcome(Failed(WriteFailed), ws, s, view)
    else if p.stop.Some? then Outcome(Failed(p.stop.value), ws, s, view)
    else
      assert ws == all;
      Outcome(Submitted, ws, s, LoadExhibits(f, Some(Backend(s, b.available)), view))
  }

  /** `submitMood` with the wallet state, the user's input, the drawn
      values, the result `look` of the table lookup for the emotion, and
      the position of the first `setData` that throws. */
  function Submit(f: Formats, b: Backend, connected: bool, signer: bool, emotion: string, intensity: int,
                  d: Draws, look: Lookup, failAt: Option<nat>, view: seq<Exhibit>): (o: Outcome)
    ensures !connected ==> o == Outcome(NotConnected, [], b.data, view)
    ensures o.data == Apply(b.data, o.writes)
    ensures o.status != Submitted ==> o.view == view
    ensures o.writes != [] ==>
      var mood := Mood(emotion, intensity, d.moodTime);
      && connected && signer && IsLatin1(f.stringifyMood(mood))
      && var p := SubmissionPlan(f, mood, Encrypt(f.stringifyMood(mood)).value, look, d);
         var all := AppendAll(f, b.data, p.entries);
         |o.writes| <= |all| && o.writes == all[..|o.writes|]
    ensures o.status == Submitted ==>
      var mood := Mood(emotion, intensity, d.moodTime);
      connected && signer && IsLatin1(f.stringifyMood(mood)) &&
      var p := SubmissionPlan(f, mood, Encrypt(f.stringifyMood(mood)).value, look, d);
      && p.stop.None?
      && o.writes == AppendAll(f, b.data, p.entries)
      && (failAt.None? || failAt.value >= |o.writes|)
      && o.view == LoadExhibits(f, Some(Backend(o.data, b.available)), view)
    ensures var mood := Mood(emotion, intensity, d.moodTime);
      connected && signer && IsLatin1(f.stringifyMood(mood)) ==>
        var p := SubmissionPlan(f, mood, Encrypt(f.stringifyMood(mood)).value, look, d);
        p.stop.None? && (failAt.None? || failAt.value >= 2 * |p.entries|) ==> o.status == Submitted
  {
    if !connected then Outcome(NotConnected, [], b.data, view)
    else
      var mood := Mood(emotion, intensity, d.moodTime);
      match Encrypt(f.stringifyMood(mood))
      case None => Outcome(Failed(Unencodable), [], b.data, view)
      case Some(encrypted) =>
        if !signer then Outcome(Failed(NoSigner), [], b.data, view)
        else RunPlan(f, b, SubmissionPlan(f, mood, encrypted, look, d), failAt, view)
  }

  /** `submitMood` as the client runs it: the lookup is the table's, at
      the drawn lookup time. It makes at most eight writes (the mood and at
      most three exhibits, a record and an index each), and the name of an
      inherited member never succeeds. */
  function SubmitMood(f: Formats, b: Backend, connected: bool, signer: bool, emotion: string, intensity: int,
                      d: Draws, failAt: Option<nat>, view: seq<Exhibit>): (o: Outcome)
    ensures !connected ==> o == Outcome(NotConnected, [], b.data, view)
    ensures |o.writes| <= 8
    ensures o.status == Submitted ==> connected && signer && emotion !in InheritedNames
  {
    var look := Recommend.Recommend(emotion, d.tableTime);
    var mood := Mood(emotion, intensity, d.moodTime);
    var encrypted := if IsLatin1(f.stringifyMood(mood)) then Encrypt(f.stringifyMood(mood)).value else "";
    LookupOffersAtMostThree(emotion, d.tableTime);
    PlanLength(f, mood, encrypted, look, d);
    InheritedLookup(emotion, d.tableTime);
    Submit(f, b, connected, signer, emotion, intensity, d, look, failAt, view)
  }

  // ---------------------------------------------------------------------
  // The shape of the plan

  /** The number of seeds a lookup offers. */
  function SeedCount(look: Lookup): nat {
    if look.Seeds? then |look.seeds| else 0
  }

  /** The ids `NewExhibitId(d, k)`, ..., `NewExhibitId(d, k + n - 1)`. */
  function IdsFrom(d: Draws, k: nat, n: nat): (ids: seq<string>)
    ensures |ids| == n
    ensures forall i :: 0 <= i < n ==> ids[i] == NewExhibitId(d, k + i)
    decreases n
  {
    if n == 0 then [] else [NewExhibitId(d, k)] + IdsFrom(d, k + 1, n - 1)
  }

  /** Exhibit entries carrying the ids drawn for positions `k`, `k + 1`,
      ... contribute exactly those ids to the exhibit index and nothing to
      the mood index. */
  lemma {:induction false} NumberedIds(es: seq<Entry>, d: Draws, k: nat)
    requires forall i :: 0 <= i < |es| ==> es[i].c == Exhibits && es[i].id == NewExhibitId(d, k + i)
    ensures IdsIn(es, Exhibits) == IdsFrom(d, k, |es|)
    ensures IdsIn(es, Moods) == []
    decreases |es|
  {
    if es != [] {
      var rest := es[1..];
      forall j | 0 <= j < |rest|
        ensures rest[j].c == Exhibits && rest[j].id == NewExhibitId(d, k + 1 + j)
      {
        assert rest[j] == es[j + 1];
      }
      NumberedIds(rest, d, k + 1);
    }
  }

  /** How long the plan is: one entry for the mood, then one per seed up to
      the first that does not encrypt; an inherited member stops the plan
      after the mood. */
  lemma PlanLength(f: Formats, mood: Mood, encrypted: string, look: Lookup, d: Draws)
    ensures var p := SubmissionPlan(f, mood, encrypted, look, d);
      && (look.Inherited? ==> |p.entries| == 1 && p.stop == Some(NotIterable))
      && (look.Seeds? ==>
            && |p.entries| <= 1 + |look.seeds|
            && (p.stop.None? <==> |p.entries| == 1 + |look.seeds|)
            && (p.stop.Some? ==> p.stop.value == Unencodable))
  {
  }

  /** Every entry after the mood is an exhibit under the id drawn for its
      position. */
  lemma PlanNumbering(f: Formats, mood: Mood, encrypted: string, look: Lookup, d: Draws)
    ensures var p := SubmissionPlan(f, mood, encrypted, look, d);
      forall i :: 1 <= i < |p.entries| ==> p.entries[i].c == Exhibits && p.entries[i].id == NewExhibitId(d, i - 1)
  {
    var p := SubmissionPlan(f, mood, encrypted, look, d);
    if look.Seeds? {
      var rest := SeedEntries(f, mood.emotion, look.seeds, d);
      forall i | 1 <= i < |p.entries| ensures p.entries[i].c == Exhibits && p.entries[i].id == NewExhibitId(d, i - 1) {
        assert p.entries[i] == rest.entries[i - 1];
      }
    }
  }

  /** A mood entry followed by exhibit entries numbered from 0 contributes
      the mood id to the mood index and the drawn ids to the exhibit index. */
  lemma MoodThenNumbered(es: seq<Entry>, moodId: string, d: Draws)
    requires es != [] && es[0].c == Moods && es[0].id == moodId && moodId != "keys"
    requires forall i :: 1 <= i < |es| ==> es[i].c == Exhibits && es[i].id == NewExhibitId(d, i - 1)
    ensures NoKeysId(es)
    ensures IdsIn(es, Moods) == [moodId]
    ensures IdsIn(es, Exhibits) == IdsFrom(d, 0, |es| - 1)
  {
    var tail := es[1..];
    forall i | 0 <= i < |tail| ensures tail[i].c == Exhibits && tail[i].id == NewExhibitId(d, 0 + i) {
      assert tail[i] == es[i + 1];
    }
    NumberedIds(tail, d, 0);
  }

  /** The plan contributes the mood id to the mood index and the drawn ids,
      from position 0, to the exhibit index; no id is `"keys"`. */
  lemma PlanShape(f: Formats, mood: Mood, encrypted: string, look: Lookup, d: Draws)
    ensures var p := SubmissionPlan(f, mood, encrypted, look, d);
      && NoKeysId(p.entries)
      && IdsIn(p.entries, Moods) == [MoodId(d.moodStamp, d.moodSuffix)]
      && IdsIn(p.entries, Exhibits) == IdsFrom(d, 0, |p.entries| - 1)
  {
    PlanNumbering(f, mood, encrypted, look, d);
    MoodThenNumbered(SubmissionPlan(f, mood, encrypted, look, d).entries, MoodId(d.moodStamp, d.moodSuffix), d);
  }

  /** Every entry of the plan can be appended: no id is `"keys"` and no
      record is empty (the mood record holds a tagged ciphertext, and every
      exhibit record holds a JSON document). */
  lemma PlanAppendable(f: Formats, mood: Mood, encrypted: string, look: Lookup, d: Draws)
    requires Utf8Law(f) && DocLaw(f)
    requires encrypted != []
    ensures Appendable(SubmissionPlan(f, mood, encrypted, look, d).entries)
  {
    var p := SubmissionPlan(f, mood, encrypted, look, d);
    PlanShape(f, mood, encrypted, look, d);
    forall i | 0 <= i < |p.entries| ensures p.entries[i].value != [] {
      if i > 0 {
        var rest := SeedEntries(f, mood.emotion, look.seeds, d);
        assert p.entries[i] == rest.entries[i - 1];
        var seed := look.seeds[i - 1];
        StringifiedDocNonEmpty(f, SeedDoc(mood.emotion, seed, Encrypt(f.stringifySeed(seed)).value, d.exhibitTime(i - 1)));
      }
    }
  }

  /** Whatever happens, including a `setData` that throws part-way, the
      backend stays consistent: every listed mood or exhibit id has a
      stored record. */
  lemma SubmitKeepsConsistent(f: Formats, b: Backend, connected: bool, signer: bool, emotion: string,
                              intensity: int, d: Draws, look: Lookup, failAt: Option<nat>, view: seq<Exhibit>)
    requires IndexLaws(f) && DocLaw(f)
    requires Consistent(f, b.data)
    ensures Consistent(f, Submit(f, b, connected, signer, emotion, intensity, d, look, failAt, view).data)
  {
    var o := Submit(f, b, connected, signer, emotion, intensity, d, look, failAt, view);
    if o.writes != [] {
      var mood := Mood(emotion, intensity, d.moodTime);
      var encrypted := Encrypt(f.stringifyMood(mood)).value;
      assert |encrypted| >= |Codec.Tag|;
      var p := SubmissionPlan(f, mood, encrypted, look, d);
      PlanAppendable(f, mood, encrypted, look, d);
      AppendAllKeepsConsistent(f, b.data, p.entries, |o.writes|);
    }
  }

  /** After all of a plan's appends, the mood index lists the mood id and
      the exhibit index the drawn id of every planned seed, after the ids
      they listed before. */
  lemma PlanIndexes(f: Formats, s: Store, mood: Mood, encrypted: string, look: Lookup, d: Draws)
    requires IndexLaws(f)
    ensures var p := SubmissionPlan(f, mood, encrypted, look, d);
      var t := Apply(s, AppendAll(f, s, p.entries));
      && ReadIndex(f, t, Moods) == ReadIndex(f, s, Moods) + [MoodId(d.moodStamp, d.moodSuffix)]
      && ReadIndex(f, t, Exhibits) == ReadIndex(f, s, Exhibits) + IdsFrom(d, 0, |p.entries| - 1)
  {
    var p := SubmissionPlan(f, mood, encrypted, look, d);
    PlanShape(f, mood, encrypted, look, d);
    AppendAllIndex(f, s, p.entries, Moods);
    AppendAllIndex(f, s, p.entries, Exhibits);
  }

  /** A successful submission adds the mood id to the mood index and one
      fresh exhibit id per seed of the lookup to the exhibit index, in
      order, with two writes per appended record. */
  lemma SubmitIndexes(f: Formats, b: Backend, connected: bool, signer: bool, emotion: string,
                      intensity: int, d: Draws, look: Lookup, failAt: Option<nat>, view: seq<Exhibit>)
    requires IndexLaws(f)
    ensures var o := Submit(f, b, connected, signer, emotion, intensity, d, look, failAt, view);
      o.status == Submitted ==>
        && look.Seeds?
        && |o.writes| == 2 * (1 + |look.seeds|)
        && ReadIndex(f, o.data, Moods) == ReadIndex(f, b.data, Moods) + [MoodId(d.moodStamp, d.moodSuffix)]
        && ReadIndex(f, o.data, Exhibits) == ReadIndex(f, b.data, Exhibits) + IdsFrom(d, 0, |look.seeds|)
  {
    var o := Submit(f, b, connected, signer, emotion, intensity, d, look, failAt, view);
    if o.status == Submitted {
      var mood := Mood(emotion, intensity, d.moodTime);
      var encrypted := Encrypt(f.stringifyMood(mood)).value;
      PlanLength(f, mood, encrypted, look, d);
      PlanIndexes(f, b.data, mood, encrypted, look, d);
    }
  }

  /** No two of the first `n` exhibit ids drawn coincide. Ids combine a
      millisecond clock with four random base-36 digits, so a clash is
      unlikely but possible. */
  predicate DistinctDraws(d: Draws, n: nat) {
    forall i, j :: 0 <= i < j < n ==> NewExhibitId(d, i) != NewExhibitId(d, j)
  }

  /** The mood stored under `"mood_<id>"`, decoded and decrypted back to
      its JSON text. */
  function MoodText(f: Formats, s: Store, id: string): Option<string> {
    match f.fromUtf8(Get(s, RecordKey(Moods, id)))
    case None => None
    case Some(text) => Decrypt(text)
  }

  /** The plan's records have distinct keys when the drawn exhibit ids do. */
  lemma PlanDistinct(f: Formats, mood: Mood, encrypted: string, look: Lookup, d: Draws)
    requires DistinctDraws(d, SeedCount(look))
    ensures DistinctRecords(SubmissionPlan(f, mood, encrypted, look, d).entries)
  {
    var p := SubmissionPlan(f, mood, encrypted, look, d);
    PlanLength(f, mood, encrypted, look, d);
    PlanNumbering(f, mood, encrypted, look, d);
    forall i, j | 0 <= i < j < |p.entries| ensures !(p.entries[i].c == p.entries[j].c && p.entries[i].id == p.entries[j].id) {
      if i > 0 {
        assert NewExhibitId(d, i - 1) != NewExhibitId(d, j - 1);
      }
    }
  }

  /** The record of the `i`-th seed after all of a complete plan's appends
      reads back as the document built from that seed, and its `data`
      decrypts back to the seed's JSON. */
  lemma SeedRecordReadable(f: Formats, s: Store, mood: Mood, encrypted: string, look: Lookup, d: Draws, i: nat)
    requires Utf8Law(f) && DocLaw(f)
    requires DistinctDraws(d, SeedCount(look))
    requires look.Seeds?
    requires SubmissionPlan(f, mood, encrypted, look, d).stop.None?
    requires i < |look.seeds|
    ensures var seed := look.seeds[i];
      var t := Apply(s, AppendAll(f, s, SubmissionPlan(f, mood, encrypted, look, d).entries));
      && IsLatin1(f.stringifySeed(seed))
      && ReadRecord(f, t, NewExhibitId(d, i))
           == Some(SeedDoc(mood.emotion, seed, Encrypt(f.stringifySeed(seed)).value, d.exhibitTime(i)))
      && Decrypt(Encrypt(f.stringifySeed(seed)).value) == Some(f.stringifySeed(seed))
  {
    var p := SubmissionPlan(f, mood, encrypted, look, d);
    var seed := look.seeds[i];
    var rest := SeedEntries(f, mood.emotion, look.seeds, d);
    PlanLength(f, mood, encrypted, look, d);
    PlanShape(f, mood, encrypted, look, d);
    PlanDistinct(f, mood, encrypted, look, d);
    assert p.entries[i + 1] == rest.entries[i];
    var doc := SeedDoc(mood.emotion, seed, Encrypt(f.stringifySeed(seed)).value, d.exhibitTime(i));
    AppendAllRecords(f, s, p.entries, i + 1);
    StringifiedDocNonEmpty(f, doc);
    assert f.parseDoc(f.stringifyDoc(doc)) == Some(doc);
    DecryptEncrypt(f.stringifySeed(seed));
  }

  /** After all of a plan's appends the mood record decrypts back to the
      mood's JSON, whatever ids were drawn for the exhibits: no exhibit
      append touches a mood key. */
  lemma MoodRecordReadable(f: Formats, s: Store, mood: Mood, look: Lookup, d: Draws)
    requires Utf8Law(f)
    requires IsLatin1(f.stringifyMood(mood))
    ensures var encrypted := Encrypt(f.stringifyMood(mood)).value;
      var t := Apply(s, AppendAll(f, s, SubmissionPlan(f, mood, encrypted, look, d).entries));
      MoodText(f, t, MoodId(d.moodStamp, d.moodSuffix)) == Some(f.stringifyMood(mood))
  {
    var encrypted := Encrypt(f.stringifyMood(mood)).value;
    var p := SubmissionPlan(f, mood, encrypted, look, d);
    PlanNumbering(f, mood, encrypted, look, d);
    FirstRecordKept(f, s, p.entries);
    assert f.fromUtf8(f.toUtf8(encrypted)) == Some(encrypted);
    DecryptEncrypt(f.stringifyMood(mood));
  }

  /** After a successful submission the mood record decrypts back to the
      mood's JSON; and when the drawn exhibit ids differ, each new exhibit
      record reads back as the document built from its seed, whose `data`
      decrypts back to the seed's JSON. */
  lemma SubmittedRecords(f: Formats, b: Backend, connected: bool, signer: bool, emotion: string,
                         intensity: int, d: Draws, look: Lookup, failAt: Option<nat>, view: seq<Exhibit>)
    requires Utf8Law(f) && DocLaw(f)
    ensures var o := Submit(f, b, connected, signer, emotion, intensity, d, look, failAt, view);
      o.status == Submitted ==>
        && MoodText(f, o.data, MoodId(d.moodStamp, d.moodSuffix)) == Some(f.stringifyMood(Mood(emotion, intensity, d.moodTime)))
        && look.Seeds?
        && (DistinctDraws(d, SeedCount(look)) ==> forall i :: 0 <= i < |look.seeds| ==>
              var seed := look.seeds[i];
              && IsLatin1(f.stringifySeed(seed))
              && ReadRecord(f, o.data, NewExhibitId(d, i))
                   == Some(SeedDoc(emotion, seed, Encrypt(f.stringifySeed(seed)).value, d.exhibitTime(i)))
              && Decrypt(Encrypt(f.stringifySeed(seed)).value) == Some(f.stringifySeed(seed)))
  {
    var o := Submit(f, b, connected, signer, emotion, intensity, d, look, failAt, view);
    if o.status == Submitted {
      var mood := Mood(emotion, intensity, d.moodTime);
      var encrypted := Encrypt(f.stringifyMood(mood)).value;
      MoodRecordReadable(f, b.data, mood, look, d);
      PlanLength(f, mood, encrypted, look, d);
      forall i | DistinctDraws(d, SeedCount(look)) && 0 <= i < |look.seeds|
        ensures var seed := look.seeds[i];
          && IsLatin1(f.stringifySeed(seed))
          && ReadRecord(f, o.data, NewExhibitId(d, i))
               == Some(SeedDoc(emotion, seed, Encrypt(f.stringifySeed(seed)).value, d.exhibitTime(i)))
          && Decrypt(Encrypt(f.stringifySeed(seed)).value) == Some(f.stringifySeed(seed))
      {
        SeedRecordReadable(f, b.data, mood, encrypted, look, d, i);
      }
    }
  }

  /** Every text field of every seed in the table is Latin-1. (All of the
      table's literals are plain ASCII.) */
  predicate TableLatin1(now: int) {
    forall t: Tag, i :: 0 <= i < 3 ==> SeedLatin1(Row(t, now)[i])
  }

  /** A connected user with a signer, submitting one of the table's five
      emotions, succeeds with eight writes (the mood and three exhibits,
      each a record and an index) when no write throws. */
  lemma SubmitSucceeds(f: Formats, b: Backend, emotion: string, intensity: int, d: Draws, view: seq<Exhibit>)
    requires Latin1Law(f)
    requires TagOf(emotion).Some? && IsLatin1(emotion)
    requires TableLatin1(d.tableTime)
    ensures var o := SubmitMood(f, b, true, true, emotion, intensity, d, None, view);
      o.status == Submitted && |o.writes| == 8
  {
    var mood := Mood(emotion, intensity, d.moodTime);
    assert IsLatin1(f.stringifyMood(mood));
    var encrypted := Encrypt(f.stringifyMood(mood)).value;
    var t := TagOf(emotion).value;
    RecommendTag(t, d.tableTime);
    var look := Recommend.Recommend(emotion, d.tableTime);
    assert look.seeds == Row(t, d.tableTime);
    PlanLength(f, mood, encrypted, look, d);
  }

  /** Submitting the name of an inherited member never succeeds: the
      lookup result cannot be iterated, so at most the mood is written. */
  lemma SubmitStopsOnInherited(f: Formats, b: Backend, connected: bool, signer: bool, emotion: string,
                               intensity: int, d: Draws, failAt: Option<nat>, view: seq<Exhibit>)
    requires emotion in InheritedNames
    ensures var o := SubmitMood(f, b, connected, signer, emotion, intensity, d, failAt, view);
      && o.status != Submitted
      && |o.writes| <= 2
      && (o.writes != [] && failAt.None? ==> o.status == Failed(NotIterable))
  {
    var mood := Mood(emotion, intensity, d.moodTime);
    InheritedLookup(emotion, d.tableTime);
    var o := SubmitMood(f, b, connected, signer, emotion, intensity, d, failAt, view);
    if o.writes != [] {
      PlanLength(f, mood, Encrypt(f.stringifyMood(mood)).value, Inherited(emotion), d);
    }
  }

  /** The table offers at most three seeds, so three distinct draws cover
      every lookup. */
  lemma LookupOffersAtMostThree(emotion: string, now: int)
    ensures SeedCount(Recommend.Recommend(emotion, now)) <= 3
  {
  }

  /** With the backend available, the list shown after a successful
      submission contains every new exhibit, as built from its seed and
      matched to the submitted emotion. */
  lemma SubmittedShowsNewExhibits(f: Formats, b: Backend, connected: bool, signer: bool, emotion: string,
                                  intensity: int, d: Draws, look: Lookup, failAt: Option<nat>, view: seq<Exhibit>)
    requires IndexLaws(f) && DocLaw(f)
    requires b.available
    requires DistinctDraws(d, SeedCount(look))
    ensures var o := Submit(f, b, connected, signer, emotion, intensity, d, look, failAt, view);
      o.status == Submitted ==>
        && look.Seeds?
        && forall i :: 0 <= i < |look.seeds| ==>
             exists e :: (e in o.view && e.id == NewExhibitId(d, i) && e.emotionMatch == emotion
                          && e.name == look.seeds[i].name && e.location == look.seeds[i].location)
  {
    var o := Submit(f, b, connected, signer, emotion, intensity, d, look, failAt, view);
    if o.status == Submitted {
      SubmitIndexes(f, b, connected, signer, emotion, intensity, d, look, failAt, view);
      SubmittedRecords(f, b, connected, signer, emotion, intensity, d, look, failAt, view);
      forall i | 0 <= i < |look.seeds|
        ensures exists e :: (e in o.view && e.id == NewExhibitId(d, i) && e.emotionMatch == emotion
                             && e.name == look.seeds[i].name && e.location == look.seeds[i].location)
      {
        var seed := look.seeds[i];
        var doc := SeedDoc(emotion, seed, Encrypt(f.stringifySeed(seed)).value, d.exhibitTime(i));
        FreshIdShown(f, o.data, b.available, view, ReadIndex(f, b.data, Exhibits), d, |look.seeds|, i, doc);
      }
    }
  }

  /** An id added to the exhibit index whose record reads back appears in
      a reload of an available backend. */
  lemma FreshIdShown(f: Formats, s: Store, available: bool, view: seq<Exhibit>, before: seq<string>,
                     d: Draws, n: nat, i: nat, doc: ExhibitDoc)
    requires IndexLaws(f) && available
    requires ReadIndex(f, s, Exhibits) == before + IdsFrom(d, 0, n)
    requires i < n
    requires ReadRecord(f, s, NewExhibitId(d, i)) == Some(doc)
    ensures exists e :: (e in LoadExhibits(f, Some(Backend(s, available)), view)
                         && e.id == NewExhibitId(d, i) && DocOf(e) == doc)
  {
    ListingAgreesWithAppendRead(f, s, Exhibits);
    assert IdsFrom(d, 0, n)[i] == NewExhibitId(d, i);
    assert (before + IdsFrom(d, 0, n))[|before| + i] == NewExhibitId(d, i);
    ShownWhenReadable(f, Backend(s, available), view, NewExhibitId(d, i));
  }
}

=== FILE: text.dfy ===
/** String helpers whose exact behaviour the web client relies on:
    the Latin-1 range accepted by `btoa`, JavaScript's `trim`, `toLowerCase`
    restricted to Latin-1, prefixes, line splitting and the decimal
    rendering of integers used in the signing challenge. */
module Text {
  import opened Wrappers

  /** Every character fits in one byte: the domain of `btoa`. */
  predicate IsLatin1(s: string) {
    forall i :: 0 <= i < |s| ==> s[i] as int < 256
  }

  /** The characters `String.prototype.trim` removes: ECMAScript WhiteSpace
      and LineTerminator code points. */
  predicate IsTrimSpace(c: char) {
    || c == '\t' || c == '\n' || c == '\U{000B}' || c == '\U{000C}' || c == '\r'
    || c == ' ' || c == '\U{00A0}' || c == '\U{1680}'
    || ('\U{2000}' <= c <= '\U{200A}')
    || c == '\U{2028}' || c == '\U{2029}' || c == '\U{202F}' || c == '\U{205F}'
    || c == '\U{3000}' || c == '\U{FEFF}'
  }

  /** The text consists of white space only (possibly none at all). */
  predicate Blank(s: string) {
    forall i :: 0 <= i < |s| ==> IsTrimSpace(s[i])
  }

  function TrimStart(s: string): (r: string)
    ensures |r| <= |s|
    ensures r != [] ==> !IsTrimSpace(r[0])
    ensures r == s[|s| - |r|..]
  {
    if |s| > 0 && IsTrimSpace(s[0]) then TrimStart(s[1..]) else s
  }

  function TrimEnd(s: string): (r: string)
    ensures |r| <= |s|
    ensures r == s[..|r|]
  {
    if |s| > 0 && IsTrimSpace(s[|s| - 1]) then TrimEnd(s[..|s| - 1]) else s
  }

  /** `s.trim()`: white space removed from both ends. */
  function Trim(s: string): string {
    TrimEnd(TrimStart(s))
  }

  lemma {:induction false} TrimStartEmptyIffBlank(s: string)
    ensures TrimStart(s) == [] <==> Blank(s)
    decreases |s|
  {
    if |s| > 0 && IsTrimSpace(s[0]) {
      TrimStartEmptyIffBlank(s[1..]);
      assert Blank(s) <==> Blank(s[1..]) by {
        if Blank(s[1..]) {
          forall i | 0 <= i < |s| ensures IsTrimSpace(s[i]) {
            if i > 0 { assert s[i] == s[1..][i - 1]; }
          }
        }
      }
    } else if |s| > 0 {
      assert !IsTrimSpace(s[0]);
    }
  }

  lemma {:induction false} TrimEndOfNonBlankStart(s: string)
    requires |s| > 0 && !IsTrimSpace(s[0])
    ensures TrimEnd(s) != []
    decreases |s|
  {
    if IsTrimSpace(s[|s| - 1]) {
      assert |s| > 1;
      TrimEndOfNonBlankStart(s[..|s| - 1]);
    }
  }

  /** `s.trim() === ''` exactly when every character is white space: the
      blank-index test of the listing code. */
  lemma TrimEmptyIffBlank(s: string)
    ensures Trim(s) == [] <==> Blank(s)
  {
    TrimStartEmptyIffBlank(s);
    var t := TrimStart(s);
    if t != [] {
      assert !IsTrimSpace(t[0]);
      TrimEndOfNonBlankStart(t);
    }
  }

  /** `toLowerCase` on one character, for the Latin-1 range: A-Z and the
      accented capitals U+00C0..U+00DE except the multiplication sign. */
  function LowerChar(c: char): (r: char)
    ensures 'A' <= c <= 'Z' ==> r as int == c as int + 32
    ensures !('A' <= c <= 'Z') && !('\U{00C0}' <= c <= '\U{00DE}') ==> r == c
  {
    if 'A' <= c <= 'Z' || ('\U{00C0}' <= c <= '\U{00DE}' && c != '\U{00D7}')
    then (c as int + 32) as char
    else c
  }

  function Lower(s: string): (r: string)
    ensures |r| == |s|
    ensures forall i :: 0 <= i < |s| ==> r[i] == LowerChar(s[i])
  {
    seq(|s|, i requires 0 <= i < |s| => LowerChar(s[i]))
  }

  predicate StartsWith(s: string, prefix: string) {
    |prefix| <= |s| && s[..|prefix|] == prefix
  }

  /** Position of the first occurrence of `c`. */
  function FirstIndex(s: string, c: char): (i: nat)
    requires c in s
    ensures i < |s| && s[i] == c
    ensures c !in s[..i]
  {
    if s[0] == c then 0 else FirstIndex(s[1..], c) + 1
  }

  /** `s.split('\n')`. */
  function SplitLines(s: string): (lines: seq<string>)
    ensures |lines| > 0
    ensures forall k :: 0 <= k < |lines| ==> '\n' !in lines[k]
    decreases |s|
  {
    if '\n' !in s then [s]
    else
      var i := FirstIndex(s, '\n');
      [s[..i]] + SplitLines(s[i + 1..])
  }

  /** Joining with a newline is undone by splitting, one line at a time. */
  lemma SplitLinesCons(line: string, rest: string)
    requires '\n' !in line
    ensures SplitLines(line + "\n" + rest) == [line] + SplitLines(rest)
  {
    var s := line + "\n" + rest;
    assert s[|line|] == '\n';
    var i := FirstIndex(s, '\n');
    assert s[..|line|] == line;
    assert i == |line|;
    assert s[i + 1..] == rest;
  }

  /** `lines.join('\n')`. */
  function JoinLines(lines: seq<string>): string
    decreases |lines|
  {
    if |lines| == 0 then ""
    else if |lines| == 1 then lines[0]
    else lines[0] + "\n" + JoinLines(lines[1..])
  }

  /** Splitting undoes joining when no line holds a newline. */
  lemma {:induction false} SplitJoinLines(lines: seq<string>)
    requires |lines| > 0
    requires forall k :: 0 <= k < |lines| ==> '\n' !in lines[k]
    ensures SplitLines(JoinLines(lines)) == lines
    decreases |lines|
  {
    if |lines| > 1 {
      SplitLinesCons(lines[0], JoinLines(lines[1..]));
      SplitJoinLines(lines[1..]);
    }
  }

  function DigitChar(d: int): (c: char)
    requires 0 <= d < 10
    ensures '0' <= c <= '9'
  {
    ('0' as int + d) as char
  }

  predicate AllDigits(s: string) {
    forall i :: 0 <= i < |s| ==> '0' <= s[i] <= '9'
  }

  /** `String(n)` for an integer-valued JavaScript number: a minus sign
      for a negative number, then the decimal digits without leading
      zeros. */
  function IntToString(n: int): (s: string)
    ensures |s| > 0 && '\n' !in s
    ensures n >= 0 ==> AllDigits(s)
    decreases if n < 0 then 1 - n else n
  {
    if n < 0 then "-" + IntToString(-n)
    else if n < 10 then [DigitChar(n)]
    else IntToString(n / 10) + [DigitChar(n % 10)]
  }

  /** The number a string of decimal digits denotes. */
  function DigitsValue(s: string): nat
    requires AllDigits(s)
  {
    if |s| == 0 then 0
    else DigitsValue(s[..|s| - 1]) * 10 + (s[|s| - 1] as int - '0' as int)
  }

  /** Reads back an integer: an optional minus sign and at least one digit. */
  function ParseInt(s: string): (r: Option<int>)
    ensures AllDigits(s) && |s| > 0 ==> r.Some? && r.value >= 0
  {
    if |s| > 0 && s[0] == '-' then
      if |s| > 1 && AllDigits(s[1..]) then Some(0 - DigitsValue(s[1..]) as int) else None
    else if |s| > 0 && AllDigits(s) then Some(DigitsValue(s))
    else None
  }

  lemma {:induction false} DigitsValueOfNat(n: nat)
    ensures DigitsValue(IntToString(n)) == n
  {
    if n >= 10 {
      var p := IntToString(n / 10);
      var s := p + [DigitChar(n % 10)];
      assert s[..|s| - 1] == p;
      DigitsValueOfNat(n / 10);
    }
  }

  /** Rendering an integer and parsing it back gives the integer. */
  lemma ParseIntToString(n: int)
    ensures ParseInt(IntToString(n)) == Some(n)
  {
    if n < 0 {
      var digits := IntToString(-n);
      var s := "-" + digits;
      assert IntToString(n) == s;
      assert s[0] == '-' && s[1..] == digits;
      DigitsValueOfNat(-n);
    } else {
      DigitsValueOfNat(n);
    }
  }
}

=== FILE: wrappers.dfy ===
/** Optional values, used wherever the modelled code can come back with
    nothing: a missing key, a failed parse, a declined signature. */
module Wrappers {

  datatype Option<+T> = None | Some(value: T) {

    /** The value, or `default` when there is none. */
    function GetOr(default: T): T {
      match this
      case Some(v) => v
      case None => default
    }
  }

  /** One byte of the key/value backend's storage, as an integer in 0..255. */
  newtype byte = x: int | 0 <= x < 256
}
